=== FILE: README.md ===
# Book service core: API clients, query plans, ranking and carousels

This project is a Dafny model of the book back end of a PHP web application. The back end has two parts.

- **API clients.** One shared client (`AbstractApi`) talks to four services:
  - Supadu, a bookseller search feed;
  - Panmcmillan, a publisher extracts feed;
  - Tastekid, a recommendation service;
  - Goodreads, a review-count service.

  A client holds request attributes, headers, extra transport options, a retry counter and a next-page cursor. Fetching a URL works like this:
  - A failure status is re-requested until a retry ceiling of 2 is reached. At that point the counter goes back to 0 and the fetch returns `false`.
  - A success with an empty decoded body returns `false`.
  - Any other success returns the decoded body. It also hands the body once to the provider's `composeNextPageLink` hook, which sets the cursor.

  Each provider also reports a page count through `calculateTotalPages`.
- **Book listings (`Book.php`).** A list of books goes through these steps:
  - a query plan is composed from the caller's criteria (fiction flag, filter, sort, age range, paper-only, offset, limit);
  - a route is chosen (direct plan or "two newest, rest shuffled");
  - the ranker merges, deduplicates and truncates the result;
  - each joined row becomes a carousel entry, using a fixed per-field priority between the publisher and bookseller columns.

  Strings are shortened with `prettyStringCutter`. Amazon search links are built for ISBNs.

Modules, one per file:

| file | module | models |
|---|---|---|
| `wrappers.dfy` | `Wrappers` | `Option` |
| `strings.dfy` | `Strings` | `implode`/`explode`, `mb_substr(s, 0, n)`, integer text and PHP's leading-integer parse |
| `json.dfy` | `PhpJson` | decoded JSON as PHP arrays: `empty`, `isset`, key reads, `(int)`, string conversion, key assignment, array union |
| `adapters.dfy` | `Adapters` | endpoints, `getRequestUrl`, and the two provider hooks of each provider |
| `abstract_api.dfy` | `AbstractApi` | the client record, the retrying fetch (recursive and as a loop), first/next page, and sessions of calls |
| `providers.dfy` | `Providers` | constructors and attribute setters of the four providers, plus Supadu's single-book fetch |
| `book_query.dfy` | `BookQuery` | joined book rows, the query plan, its meaning as a row filter, and routing |
| `ranker.dfy` | `Ranker` | two newest, rest shuffled, unique, take |
| `carousel.dfy` | `Carousel` | the carousel projection, `prettyStringCutter`, Amazon links |

Things the code reaches outside itself for are parameters of the model:
- **The transport.** The n-th request a client sends is answered by `respond(n)`, which gives a status and the decoded body.
- **`http_build_query`.** An uninterpreted `Encoder`.
- **Database relations.** `whereHas` on categories, collections, formats and authors becomes a `Relations` oracle.
- **Filesystem and site URL.** `file_exists`, `url('/')` and the image directories are fields of `Env`/`Assets`.
- **Other collaborators.** The bookseller author lookup and `clearString` are functions in `Env`. API keys are arguments.

Where the code and its evident intent differ, the model follows the code:
- **Retry counter.** The counter is reset only when the retries are exhausted. A successful fetch never resets it (see Findings).
- **Supadu's next-page link.** The link uses the response's `next` value, not `current + 1`.
- **Supadu's cleared cursor.** Supadu stores `false` as its cleared cursor, not `''`.
- **Supadu's last-page test.** The test is PHP's strict `===`, so `3` and `"3"` do not match.

The three `CustomSortFilterStep::SORT_BY_*` constants are not defined in the modelled files. The model takes them from the documented values at Book.php:692: `publication_date`, `price` and `average_rating`. With these values, the ranker's literal `'publication_date'` over-fetch selects the newest ordering.

## Model

| member | source | states |
|---|---|---|
| PhpJson.Put | Interfaces/AbstractApi.php:220-223 | Assigning a key gives it the new value and leaves every other key's value and the key set (plus the new key) unchanged; an existing key is overwritten in place |
| PhpJson.Union | Interfaces/AbstractApi.php:154 | PHP array `+`: keys of the left operand keep their values, only missing keys come from the right |
| AbstractApi.RequestCarriesHeaders | Interfaces/AbstractApi.php:147-155 | Every request is a `GET` to the given URL whose options hold the client's headers under `headers`, overriding any `headers` extra option, with every other extra option passed through |
| Adapters.RequestUrl | Interfaces/AbstractApi.php:97-105 | The request URL is exactly the endpoint, then `?`, then the encoded attributes; it always contains `?` |
| AbstractApi.NewClient | Interfaces/AbstractApi.php:9-30 | A fresh client has no attributes, headers or options, counter 0 and cursor `''` |
| AbstractApi.SetHeader | Interfaces/AbstractApi.php:220-223 | Writes one header, leaves all other headers and all other client state unchanged |
| AbstractApi.ResponseOkIsLooseTwoHundred | Interfaces/AbstractApi.php:194-202 | `isApiResponseOk` holds exactly for the status that equals `'200'` under PHP's loose comparison, that is, whose decimal text is `200` |
| AbstractApi.Fetch | Interfaces/AbstractApi.php:145-186 | A fetch leaves provider, attributes, headers and options alone, keeps the earlier request log as a prefix, and sends between 1 and budget+1 requests |
| AbstractApi.FetchCharacterised | Interfaces/AbstractApi.php:145-186 | All requests go to the same URL with the same headers and options; all answers before the last are failures; on a final success the counter has grown by the retries used (no reset), an empty body gives `false` with the cursor untouched, a non-empty body is returned and the cursor is what the provider hook derives from it; on a final failure the whole budget was used, the result is `false`, the counter is 0 and the cursor untouched |
| AbstractApi.GetApiResponse | Interfaces/AbstractApi.php:145-186 | The retry loop computes exactly the recursive fetch |
| AbstractApi.FetchSucceedsIffFewFailures | Interfaces/AbstractApi.php:157-172 | From counter 0, a body preceded by n failures is returned iff n ≤ 2, at most 3 requests are sent, and the counter is left at n |
| AbstractApi.GetFirstPage | Interfaces/AbstractApi.php:132-137 | Every request of the fetch goes to the attribute-built request URL |
| AbstractApi.GetNextPage | Interfaces/AbstractApi.php:120-125 | Every request of the fetch goes to the stored cursor verbatim, including `''` or `false` |
| AbstractApi.CounterStaysInRange | Interfaces/AbstractApi.php:157-185 | Over any sequence of page fetches the counter stays within [0, 2] |
| AbstractApi.SinglePageCursorFixed | ApiReflections/Tastekid.php:31-34 | For Tastekid and Goodreads, the cursor after any sequence of fetches is the one the client started with |
| AbstractApi.SuccessShrinksNextBudget | Interfaces/AbstractApi.php:163-185 | As written, after a fetch that needed two retries the next fetch gets one attempt (4 requests in all); with the counter reset it gets three (6 requests) |
| AbstractApi.FetchWithReset | Interfaces/AbstractApi.php:163-185 | Corrected fetch: same requests, outcome and cursor as the code, but the counter is back at 0 after every fetch |
| AbstractApi.RunWithReset | Interfaces/AbstractApi.php:120-186 | Corrected session: the counter stays 0, each call sends between 1 and 3 requests, and single-page providers keep their cursor |
| Adapters.SupaduNextPageLink | ApiReflections/Supadu.php:81-128 | `false` exactly when the pagination block is empty, any of `next`/`total`/`current` is empty, or `current === total`; otherwise request URL, `&`, `page=`, and the response's `next` |
| Adapters.NextCursor | ApiReflections/Supadu.php:69-73 | Supadu overwrites the cursor with the derived link (possibly `false`); Panmcmillan stores a non-empty `NextPageUrl` verbatim and otherwise `''`; Tastekid and Goodreads keep the cursor |
| Adapters.NextCursorForgetsPrevious | ApiReflections/Panmcmillan.php:69-78 | For Supadu and Panmcmillan the new cursor does not depend on the old one, and composing twice equals composing once |
| Adapters.TotalPages | ApiReflections/Panmcmillan.php:84-92 | Null exactly when the count (`PageCount` / `pages.total`) is not set, else its integer cast; 1 for Tastekid and Goodreads |
| Adapters.TotalPagesOfNumber | ApiReflections/Supadu.php:134-142 | A count sent as an integer or as its decimal text is reported as that integer |
| Adapters.SupaduZeroTotal | ApiReflections/Supadu.php:98-142 | A total of 0 is reported as 0 pages while the link derivation treats it as missing and returns `false` |
| Adapters.SupaduStrictLastPage | ApiReflections/Supadu.php:113-125 | Current page `3` and total `"3"` are not identical, so the link to page 4 is produced |
| Providers.NewSupadu | ApiReflections/Supadu.php:16-23 | Headers are exactly `x-apikey` (the token) and `Accept-Encoding: gzip`; attributes are exactly `category_data=1` |
| Providers.SupaduSet | ApiReflections/Supadu.php:36-63 | Each setter writes its own key and leaves the other attributes, headers, counter and cursor unchanged |
| Providers.GetBookByIsbn | ApiReflections/Supadu.php:144-150 | Every request goes to the single-book URL followed by the ISBN |
| Providers.NewPanmcmillan | ApiReflections/Panmcmillan.php:5-7 | A fresh instance has no attributes, so (for an encoder mapping no attributes to `""`) its first-page URL is the endpoint plus `?` |
| Providers.PanmcmillanSet | ApiReflections/Panmcmillan.php:13-64 | Each of the seven setters writes its own key, leaves the other attributes unchanged, and leaves the provider, headers, options, counter, cursor and request log as they were |
| Providers.PanmcmillanKeysDistinct | ApiReflections/Panmcmillan.php:13-64 | Distinct setters write distinct keys |
| Providers.NewTastekid | ApiReflections/Tastekid.php:10-26 | Attributes are exactly `k`; options enable streaming and disable peer and peer-name verification |
| Providers.TastekidSet | ApiReflections/Tastekid.php:39-58 | `setKey`/`setQuery`/`setType` write only `k`/`q`/`type`; nothing else of the client changes |
| Providers.GoodreadsSetKey | ApiReflections/Goodreads.php:36-39 | Writes `key`, keeps the other attributes, and changes nothing else of the client |
| Providers.GoodreadsSetIsbns | ApiReflections/Goodreads.php:28-31 | Stores the comma join under `isbns`, keeps the other attributes and changes nothing else of the client; no space is introduced, and splitting at commas gives the list back when no ISBN holds a comma |
| Providers.NewGoodreads | ApiReflections/Goodreads.php:11-15 | A fresh instance always has the `key` attribute |
| BookQuery.AgeTerms | Book.php:746-767 | from < to gives every age from..to; otherwise just from; a null `from` with `to` set gives 1..to, as `(int)null` is 0; neither gives nothing |
| BookQuery.SortKeys | Book.php:769-792 | cheapest → supadu price; newest → panmcmillan then supadu publication date; popular → supadu then panmcmillan rating; any other sort → no key |
| BookQuery.Compose | Book.php:700-806 | Offset and limit are the caller's; ordering is random exactly when the sort is empty, otherwise the mapped keys with direction defaulting to `asc` |
| BookQuery.ComposeSelects | Book.php:712-767 | A row passes the plan's where-clauses iff it meets every selected criterion (fiction, collection, genre, paper format, author, keyword, age interval) |
| BookQuery.KeywordClausesSelect | Book.php:737-744 | The keyword group admits a row iff the keyword occurs in the publisher keynote, publisher title or bookseller title |
| BookQuery.KeywordDoesNotLeak | Book.php:737-744 | Adding a keyword filter only narrows the selection: the other conditions still apply to every admitted row |
| BookQuery.AgeTermsSelectInterval | Book.php:746-767 | The age OR-group admits exactly the rows whose `age_from` lies in the requested interval (or equals `from`) |
| BookQuery.AgeClausesSelect | Book.php:746-767 | The age clause admits a row iff its `age_from` is accepted by the range |
| BookQuery.NineToTwelve | Book.php:757-763 | Age 9 to 12 admits exactly `age_from` 9, 10, 11, 12 |
| BookQuery.OverFetch | Book.php:580-590 | The ranker's fetch is the same filter with limit 100, the caller's offset and both publication dates descending |
| BookQuery.SpecialSorting | Book.php:500-552 | Every route filters with the caller's where-clauses and keeps the caller's offset; the ranker is used exactly when a filter is given without a sort, and then returns the caller's limit from a 100-row newest-first fetch; with no filter and no sort the order is both publication dates ascending; a given sort is kept |
| BookQuery.SpecialSortingSelects | Book.php:500-552 | Whatever the route, its query admits a row iff the row meets the caller's criteria |
| BookQuery.Latest | Book.php:56-84 | Always a direct query with the caller's offset, limit and filter clauses; a null sort becomes both publication dates descending; any other sort is passed on, so an `empty()` one (`""` or `"0"`) gives random order and a non-empty one its mapped keys |
| BookQuery.LatestSelects | Book.php:56-84 | The latest-books query admits a row iff it meets the caller's filter and paper-only choice |
| BookQuery.AgeBased | Book.php:221-260 | Every route filters with the caller's where-clauses including the age range and keeps the caller's offset; the ranker is used exactly when both sort and filter are null, and then returns the caller's limit from a 100-row newest-first fetch; otherwise the caller's limit, with random order for an empty sort and the mapped sort keys otherwise |
| BookQuery.AgeBasedSelects | Book.php:221-260 | Whatever the route, its query admits a row iff the row meets the caller's filter and age range |
| BookQuery.AgeBasedHonoursAge | Book.php:233-256 | Whatever the route, every admitted row's `age_from` is accepted by the range |
| Ranker.Rank | Book.php:591-613 | Empty fetch → empty; no duplicates; only fetched books; exactly min(abs(limit), distinct) books; the newest book first and the two newest first when distinct |
| Ranker.TwoNewestLead | Book.php:591-613 | With 10 distinct books and limit 5, five books come back led by the two newest |
| Carousel.PrettyStringCutter | Book.php:408-421 | Short strings unchanged; longer ones keep max−3 characters and end in `...`, exactly max long for max ≥ 3 |
| Carousel.CutterBelowThree | Book.php:414-418 | Cutting "abcdef" to 2 gives "a...", longer than the limit |
| Carousel.ImageUrl | Book.php:454-470 | Publisher stored file if set and present, then bookseller stored file if set and present, then jacket URL, then bookseller image |
| Carousel.EntryFor | Book.php:432-479 | ISBN bookseller-then-publisher; author from the held bookseller names unless empty; image by priority; title publisher-then-bookseller, cleaned, at most 80; price bookseller; rating publisher-then-bookseller |
| Carousel.ProjectAsWritten | Book.php:429-482 | One entry per row, in order; bookseller author names carry over to later rows |
| Carousel.RowAuthor | Book.php:438-451 | A row's author is its comma-joined bookseller names when it has a bookseller id and the join is truthy (neither `""` nor `"0"`), else its publisher author |
| Carousel.ProjectCarousel | Book.php:429-482 | Corrected projection: one entry per row, each built from its own row only |
| Carousel.AsWrittenAt | Book.php:438-451 | Row i of the as-written projection is the row's entry under the names held since the last row with a bookseller id |
| Carousel.AsWrittenDiffersOnlyInAuthor | Book.php:429-482 | As written and corrected projections agree on every field but author, and entirely when every row has a bookseller id |
| Carousel.AuthorLeaksToNextRow | Book.php:438-451 | A row without a bookseller id after one with author "Ann Author" shows "Ann Author" as written, its own "Bob Writer" when corrected |
| Carousel.PublisherAuthorWhenNoLinks | Book.php:444-448 | A bookseller book with no linked authors shows the publisher author |
| Carousel.AmazonLink | Book.php:624-627 | The link is the Amazon search prefix followed by the ISBN |
| Carousel.CheckForAmazonUrl | Book.php:333-340 | The link searches for the book's own ISBN for any format, and for the paper edition's ISBN (else its own) for paper only |

## Left out

- Guzzle's HTTP transport (`getHttpClient`, `request`) and its exceptions on 4xx/5xx statuses: the transport is a script of answers, and every status reaches `isApiResponseOk`.
- `json_decode`: each answer carries its decoded body. Invalid JSON is folded into an empty body (`null`).
- `http_build_query`: an uninterpreted encoder.
- Fractional numbers in decoded JSON, the exponent forms of numeric strings, and the 64-bit saturation of `(int)`.
- Reading a key of a string or number: the model reads it as `null`. In PHP, `$string['key']` raises a warning or error.
- Database execution through Eloquent: `FullJoinBook` queries, `extractView`, `bookDetail`, `getSimilarAuthors` and `getSupaduCustomCollection`.
  - `whereHas*` relations are an oracle.
  - The paper-edition lookup of `getAmazonLinkFromPivot` is an argument, `paperIsbn13`.
  - The bookseller author list is `Env.supaduAuthors`.
- `getFiction`, `getNonFiction` and the other thin wrappers: they only fix arguments of the modelled routes.
- SQL `LIKE` details: the model uses plain substring matching. Wildcard characters in the keyword and case-insensitive collation are not modelled.
- `clearString` (`strip_tags`, `html_entity_decode`, `trim`): an uninterpreted function.
- Multibyte details of `mb_strlen`/`mb_substr`: a string is a sequence of characters.
- `shuffle` and SQL `RAND()`: the shuffle is any permutation of the rest, and random order is a plan flag.
- `unique()`'s loose comparison of rows: the model uses equality.
- The array keys of the results.
- `env()` lookups: API keys and tokens are arguments.
- Loose `==` between a filter name and a non-string value.
- BookQuery.AgeTerms: an age array with `to` but no `from` key is modelled as a null `from` (read as 0). In PHP the bare read at Book.php:755 raises an undefined-index notice, which Laravel turns into an exception; the model does not raise it.
- Adapters.NextCursor: a Panmcmillan body with no `NextPageUrl` key gives the cursor `''`. In PHP the bare read at ApiReflections/Panmcmillan.php:71 raises an undefined-index notice, which Laravel turns into an exception; the model does not treat it as a failed fetch.
- Ranker.Rank: a negative `limit` is modelled as Laravel's `take` from the end; its size is stated, but not which books the tail holds.

## Findings

| source | as written | input that shows it | evidently intended | confidence | as-written member | corrected member |
|---|---|---|---|---|---|---|
| Interfaces/AbstractApi.php:163-185 | The retry counter is raised on each retry but reset only when retries run out, never after a success | Answers fail, fail, succeed, then keep failing: the first fetch succeeds with the counter at 2, and the next fetch on the same client gives up after one request | Each fetch starts with the full retry budget | not executed | AbstractApi.SuccessShrinksNextBudget | AbstractApi.FetchWithReset |
| Book.php:438-451 | `$authorsSupadu` is set only for rows with a bookseller id and is never cleared, so it survives into later rows | Row 1 has bookseller id 7 with author "Ann Author"; row 2 has no bookseller id and publisher author "Bob Writer": row 2 is shown as "Ann Author" | Each row's author comes from that row only | not executed | Carousel.AuthorLeaksToNextRow | Carousel.ProjectCarousel |

=== FILE: abstract_api.dfy ===
/** The retrying, paginating API client shared by every provider: a state
    record (attributes, headers, transport options, retry counter, cursor)
    and the fetch operation, which re-issues a failed request until a retry
    ceiling is reached and, on success, lets the provider hook update the
    cursor.

    The transport is a script: the n-th request the client ever sends is
    answered by `respond(n)`. `json_decode` is folded into the script (each
    answer carries the decoded body) and `http_build_query` is an
    `Encoder` parameter. */
module AbstractApi {
  import opened Wrappers
  import opened PhpJson
  import opened Adapters
  import Strings

  /** `repeatRequestHowManyTimes`: retries allowed after the first attempt. */
  const MaxRepeats: int := 2

  /** `apiRequestMethod`, the same for every provider. */
  const RequestMethod := "GET"

  /** A request as handed to the transport: verb, URL, the client's headers
      and its additional request options. */
  datatype Request = Request(verb: string, url: Json, headers: Fields, extra: Fields)
  {
    /** The options array Guzzle receives:
        `['headers' => $headers] + $additionalRequestOptions`. */
    function Options(): Fields
    {
      Union([("headers", JObject(headers))], extra)
    }
  }

  /** A transport answer: status code and decoded body. */
  datatype Response = Response(status: int, body: Json)

  type Transport = nat -> Response

  /** One client instance. `counter` is `repeatRequestCounter`, `cursor` is
      `nextPageLink` (a URL, `''` or `false`), `sent` records every request
      issued so far. */
  datatype Client = Client(
    provider: Provider,
    attributes: Fields,
    headers: Fields,
    options: Fields,
    counter: int,
    cursor: Json,
    sent: seq<Request>)

  /** What a fetch returns: `false` or the decoded body. */
  datatype Outcome = Failed | Decoded(body: Json)

  datatype Fetched = Fetched(client: Client, outcome: Outcome)

  /** A fresh instance: no attributes, headers or options, counter 0, cursor `''`. */
  function NewClient(p: Provider): (c: Client)
    ensures c.provider == p && c.counter == 0 && c.cursor == JString("")
    ensures c.attributes == [] && c.headers == [] && c.options == [] && c.sent == []
  {
    Client(p, [], [], [], 0, JString(""), [])
  }

  /** `isApiResponseOk`: only status 200 is success. */
  predicate IsApiResponseOk(status: int) { status == 200 }

  /** `isApiResponseOk` compares with PHP's loose `$statusCode == '200'`.
      An integer against a numeric string compares as numbers, so success is
      exactly the status whose decimal text is `200`. */
  lemma ResponseOkIsLooseTwoHundred(status: int)
    ensures IsApiResponseOk(status) <==> status == Strings.ParseInt("200")
    ensures IsApiResponseOk(status) <==> Strings.IntToString(status) == "200"
  {
    assert Strings.NatToString(2) == "2";
    assert Strings.NatToString(20) == "20";
    assert Strings.NatToString(200) == "200";
    Strings.ParseIntToString(200);
    Strings.ParseIntToString(status);
  }

  /** Retries still available to a fetch that starts with this counter. */
  function Budget(counter: int): nat
  {
    if counter < MaxRepeats then MaxRepeats - counter else 0
  }

  /** `setHeader`: writes one header and no other. */
  function SetHeader(c: Client, name: string, value: Json): (r: Client)
    ensures Lookup(r.headers, name) == Some(value)
    ensures forall k :: k != name ==> Lookup(r.headers, k) == Lookup(c.headers, k)
    ensures r.attributes == c.attributes && r.options == c.options && r.provider == c.provider
    ensures r.counter == c.counter && r.cursor == c.cursor && r.sent == c.sent
  {
    c.(headers := Put(c.headers, name, value))
  }

  /** The request the client issues for `url`. */
  function RequestFor(c: Client, url: Json): Request
  {
    Request(RequestMethod, url, c.headers, c.options)
  }

  /** A request is a GET to the given URL whose options carry the client's
      headers, even when the additional options hold a `headers` entry of
      their own; every other option is passed through unchanged. */
  lemma RequestCarriesHeaders(c: Client, url: Json)
    ensures RequestFor(c, url).verb == "GET" && RequestFor(c, url).url == url
    ensures Lookup(RequestFor(c, url).Options(), "headers") == Some(JObject(c.headers))
    ensures forall k :: k != "headers" ==> Lookup(RequestFor(c, url).Options(), k) == Lookup(c.options, k)
  {
  }

  /** `getApiResponse`: request `url`; on a failure status retry while the
      counter is below the ceiling, raising it each time, and reset it once
      the ceiling is reached; on success return `false` for an empty body,
      else hand the body to the provider hook and return it. The client's
      configuration is untouched, and between one and budget + 1 requests
      are appended to the log. */
  function Fetch(c: Client, url: Json, enc: Encoder, respond: Transport): (r: Fetched)
    ensures r.client.provider == c.provider && r.client.attributes == c.attributes
    ensures r.client.headers == c.headers && r.client.options == c.options
    ensures |c.sent| < |r.client.sent| <= |c.sent| + Budget(c.counter) + 1
    ensures r.client.sent[..|c.sent|] == c.sent
    decreases Budget(c.counter)
  {
    var response := respond(|c.sent|);
    var c1 := c.(sent := c.sent + [RequestFor(c, url)]);
    if !IsApiResponseOk(response.status) then
      if c1.counter < MaxRepeats then
        Fetch(c1.(counter := c1.counter + 1), url, enc, respond)
      else
        Fetched(c1.(counter := 0), Failed)
    else if Empty(response.body) then
      Fetched(c1, Failed)
    else
      Fetched(c1.(cursor := NextCursor(c.provider, c.attributes, c.cursor, response.body, enc)), Decoded(response.body))
  }

  /** What a fetch did, request by request. Every request went to `url`
      with the client's headers and options, and every answer before the
      last was a failure status. If the last answer is a success, the
      counter has risen by the number of retries used and is NOT reset; an
      empty body gives `false` and leaves the cursor alone; a non-empty body
      is returned and handed once to the provider hook. If the last answer
      is a failure, the whole budget was spent, the result is `false` and
      the counter is back to 0. */
  lemma {:induction false} FetchCharacterised(c: Client, url: Json, enc: Encoder, respond: Transport)
    ensures var r := Fetch(c, url, enc, respond);
            forall i :: |c.sent| <= i < |r.client.sent| ==> r.client.sent[i] == RequestFor(c, url)
    ensures var r := Fetch(c, url, enc, respond);
            forall i :: |c.sent| <= i < |r.client.sent| - 1 ==> !IsApiResponseOk(respond(i).status)
    ensures var r := Fetch(c, url, enc, respond);
            var last := respond(|r.client.sent| - 1);
            var retries := |r.client.sent| - |c.sent| - 1;
            if IsApiResponseOk(last.status) then
              && r.client.counter == c.counter + retries
              && (Empty(last.body) ==> r.outcome == Failed && r.client.cursor == c.cursor)
              && (!Empty(last.body) ==>
                    && r.outcome == Decoded(last.body)
                    && r.client.cursor == NextCursor(c.provider, c.attributes, c.cursor, last.body, enc))
            else
              && retries == Budget(c.counter)
              && r.outcome == Failed
              && r.client.counter == 0
              && r.client.cursor == c.cursor
    decreases Budget(c.counter)
  {
    var c1 := c.(sent := c.sent + [RequestFor(c, url)]);
    if !IsApiResponseOk(respond(|c.sent|).status) && c1.counter < MaxRepeats {
      FetchCharacterised(c1.(counter := c1.counter + 1), url, enc, respond);
    }
  }

  /** `getApiResponse` written as the bounded loop it amounts to, with the
      attempt count carried in the loop state; it computes exactly what the
      recursive definition does. */
  method GetApiResponse(c: Client, url: Json, enc: Encoder, respond: Transport) returns (r: Fetched)
    ensures r == Fetch(c, url, enc, respond)
  {
    var current := c;
    while true
      invariant Fetch(current, url, enc, respond) == Fetch(c, url, enc, respond)
      decreases Budget(current.counter)
    {
      var response := respond(|current.sent|);
      current := current.(sent := current.sent + [RequestFor(current, url)]);
      if IsApiResponseOk(response.status) {
        if Empty(response.body) {
          return Fetched(current, Failed);
        }
        var cursor := NextCursor(current.provider, current.attributes, current.cursor, response.body, enc);
        return Fetched(current.(cursor := cursor), Decoded(response.body));
      }
      if current.counter >= MaxRepeats {
        return Fetched(current.(counter := 0), Failed);
      }
      current := current.(counter := current.counter + 1);
    }
  }

  /** `getFirstPage`: fetches the request URL built from the attributes. */
  function GetFirstPage(c: Client, enc: Encoder, respond: Transport): (r: Fetched)
    ensures forall i :: |c.sent| <= i < |r.client.sent| ==>
              r.client.sent[i].url == JString(RequestUrl(c.provider, c.attributes, enc))
    ensures |c.sent| < |r.client.sent| <= |c.sent| + Budget(c.counter) + 1
  {
    FetchCharacterised(c, JString(RequestUrl(c.provider, c.attributes, enc)), enc, respond);
    Fetch(c, JString(RequestUrl(c.provider, c.attributes, enc)), enc, respond)
  }

  /** `getNextPage`: fetches the stored cursor verbatim, even when it is the
      initial `''` or Supadu's `false`. */
  function GetNextPage(c: Client, enc: Encoder, respond: Transport): (r: Fetched)
    ensures forall i :: |c.sent| <= i < |r.client.sent| ==> r.client.sent[i].url == c.cursor
    ensures |c.sent| < |r.client.sent| <= |c.sent| + Budget(c.counter) + 1
  {
    FetchCharacterised(c, c.cursor, enc, respond);
    Fetch(c, c.cursor, enc, respond)
  }

  /** With a fresh budget (counter 0, ceiling 2), a fetch whose first `n`
      answers are failures and whose next is a success with a body returns
      that body exactly when `n` is at most 2; at most three requests are
      issued either way. */
  lemma FetchSucceedsIffFewFailures(c: Client, url: Json, enc: Encoder, respond: Transport, n: nat)
    requires c.counter == 0
    requires forall i :: |c.sent| <= i < |c.sent| + n ==> !IsApiResponseOk(respond(i).status)
    requires IsApiResponseOk(respond(|c.sent| + n).status) && !Empty(respond(|c.sent| + n).body)
    ensures var r := Fetch(c, url, enc, respond);
            && (r.outcome.Decoded? <==> n <= 2)
            && |r.client.sent| - |c.sent| <= 3
            && (n <= 2 ==> r.outcome.body == respond(|c.sent| + n).body && r.client.counter == n)
  {
    FetchCharacterised(c, url, enc, respond);
  }

  // ---- sessions of calls ----

  datatype Call = FirstPage | NextPage

  /** The URL a page call requests. */
  function CallUrl(c: Client, call: Call, enc: Encoder): Json
  {
    match call
    case FirstPage => JString(RequestUrl(c.provider, c.attributes, enc))
    case NextPage => c.cursor
  }

  /** One page call: both kinds are a fetch of the call's URL. */
  function Page(c: Client, call: Call, enc: Encoder, respond: Transport): (r: Fetched)
    ensures r == Fetch(c, CallUrl(c, call, enc), enc, respond)
  {
    match call
    case FirstPage => GetFirstPage(c, enc, respond)
    case NextPage => GetNextPage(c, enc, respond)
  }

  /** A sequence of page fetches on one client. */
  function Run(c: Client, calls: seq<Call>, enc: Encoder, respond: Transport): Client
    decreases |calls|
  {
    if |calls| == 0 then c
    else Run(Page(c, calls[0], enc, respond).client, calls[1..], enc, respond)
  }

  /** The retry counter never leaves [0, 2] once it starts there. */
  lemma {:induction false} CounterStaysInRange(c: Client, calls: seq<Call>, enc: Encoder, respond: Transport)
    requires 0 <= c.counter <= MaxRepeats
    ensures 0 <= Run(c, calls, enc, respond).counter <= MaxRepeats
    decreases |calls|
  {
    if |calls| > 0 {
      var url := CallUrl(c, calls[0], enc);
      var f := Fetch(c, url, enc, respond);
      FetchCharacterised(c, url, enc, respond);
      assert 0 <= f.client.counter <= MaxRepeats;
      CounterStaysInRange(f.client, calls[1..], enc, respond);
      assert Run(c, calls, enc, respond) == Run(f.client, calls[1..], enc, respond);
    }
  }

  /** The single-page providers never move the cursor: after any sequence of
      fetches it is still what it was (`''` for a fresh instance). */
  lemma {:induction false} SinglePageCursorFixed(c: Client, calls: seq<Call>, enc: Encoder, respond: Transport)
    requires c.provider.SinglePage()
    ensures Run(c, calls, enc, respond).cursor == c.cursor
    decreases |calls|
  {
    if |calls| > 0 {
      var url := CallUrl(c, calls[0], enc);
      var f := Fetch(c, url, enc, respond);
      FetchCharacterised(c, url, enc, respond);
      assert f.client.cursor == c.cursor && f.client.provider == c.provider;
      SinglePageCursorFixed(f.client, calls[1..], enc, respond);
      assert Run(c, calls, enc, respond) == Run(f.client, calls[1..], enc, respond);
    }
  }

  // ---- the retry budget carried over a success ----

  /** Counter reset after every fetch, the behaviour the retry budget is
      meant to have: each fetch starts with the full budget. */
  function FetchWithReset(c: Client, url: Json, enc: Encoder, respond: Transport): (r: Fetched)
    requires c.counter == 0
    ensures r.client.counter == 0
    ensures |c.sent| < |r.client.sent| <= |c.sent| + MaxRepeats + 1
    ensures r.client.provider == c.provider && r.client.attributes == c.attributes
    ensures r.outcome == Fetch(c, url, enc, respond).outcome
    ensures r.client.cursor == Fetch(c, url, enc, respond).client.cursor
    ensures r.client.sent == Fetch(c, url, enc, respond).client.sent
  {
    var f := Fetch(c, url, enc, respond);
    Fetched(f.client.(counter := 0), f.outcome)
  }

  /** A session of page fetches with the corrected counter handling. Every
      fetch starts from a zero counter and so may send up to three requests. */
  function RunWithReset(c: Client, calls: seq<Call>, enc: Encoder, respond: Transport): (r: Client)
    requires c.counter == 0
    ensures r.counter == 0
    ensures |c.sent| + |calls| <= |r.sent| <= |c.sent| + (MaxRepeats + 1) * |calls|
    ensures c.provider.SinglePage() ==> r.cursor == c.cursor
    decreases |calls|
  {
    if |calls| == 0 then c
    else
      var url := CallUrl(c, calls[0], enc);
      var next := FetchWithReset(c, url, enc, respond).client;
      assert c.provider.SinglePage() ==> next.cursor == c.cursor by {
        FetchCharacterised(c, url, enc, respond);
      }
      var r := RunWithReset(next, calls[1..], enc, respond);
      assert |next.sent| + |calls| - 1 <= |r.sent| <= |next.sent| + (MaxRepeats + 1) * (|calls| - 1);
      r
  }

  /** A transport that fails twice, succeeds once, then fails for good. */
  function FailTwiceThenSucceed(): Transport
  {
    (i: nat) => if i == 2 then Response(200, JObject([("ok", JBool(true))])) else Response(500, JNull)
  }

  /** As written, a fetch that needed two retries leaves the counter at 2,
      so the next fetch on the same client gives up after a single request;
      with the counter reset it gets its three attempts back. */
  lemma SuccessShrinksNextBudget(url: Json, enc: Encoder)
    ensures var respond := FailTwiceThenSucceed();
            var first := Fetch(NewClient(Tastekid), url, enc, respond);
            var second := Fetch(first.client, url, enc, respond);
            && first.outcome.Decoded? && first.client.counter == 2
            && second.outcome == Failed && |second.client.sent| == 4
    ensures var respond := FailTwiceThenSucceed();
            var first := FetchWithReset(NewClient(Tastekid), url, enc, respond);
            var second := FetchWithReset(first.client, url, enc, respond);
            && first.outcome.Decoded? && first.client.counter == 0
            && second.outcome == Failed && |second.client.sent| == 6
  {
    var respond := FailTwiceThenSucceed();
    var c := NewClient(Tastekid);
    assert !Empty(respond(2).body);
    FetchSucceedsIffFewFailures(c, url, enc, respond, 2);
    var first := Fetch(c, url, enc, respond);
    assert first.outcome.Decoded? && first.client.counter == 2 && |first.client.sent| == 3;
    assert Fetch(first.client, url, enc, respond).outcome == Failed
        && |Fetch(first.client, url, enc, respond).client.sent| == 4 by {
      var second := Fetch(first.client, url, enc, respond);
      FetchCharacterised(first.client, url, enc, respond);
      assert !IsApiResponseOk(respond(|second.client.sent| - 1).status);
    }
    var reset := FetchWithReset(c, url, enc, respond);
    assert reset.client.counter == 0 && |reset.client.sent| == 3;
    assert Fetch(reset.client, url, enc, respond).outcome == Failed
        && |Fetch(reset.client, url, enc, respond).client.sent| == 6 by {
      var again := Fetch(reset.client, url, enc, respond);
      FetchCharacterised(reset.client, url, enc, respond);
      assert !IsApiResponseOk(respond(|again.client.sent| - 1).status);
    }
  }
}

=== FILE: adapters.dfy ===
/** The provider hooks every API client is configured with: the base
    endpoint, the next-page link derivation (`composeNextPageLink`) and the
    page count (`calculateTotalPages`), one variant per upstream service. */
module Adapters {
  import opened Wrappers
  import opened PhpJson
  import Strings

  /** Bookseller search feed, publisher extracts feed, recommendation
      service, review-count service. */
  datatype Provider = Supadu | Panmcmillan | Tastekid | Goodreads {
    /** Providers whose responses always fit in one page. */
    predicate SinglePage() { Tastekid? || Goodreads? }
  }

  /** PHP's `http_build_query`, left uninterpreted. */
  type Encoder = Fields -> string

  function ApiUrl(p: Provider): string
  {
    match p
    case Supadu => "http://macmillan-folioservices.supadu.com/search"
    case Panmcmillan => "http://extracts.panmacmillan.com/getextracts"
    case Tastekid => "https://www.tastekid.com/api/similar"
    case Goodreads => "https://www.goodreads.com/book/review_counts.json"
  }

  const SupaduSingleBookUrl := "http://macmillan-folioservices.supadu.com/book/"

  /** `getRequestUrl`: the endpoint, a question mark, then the encoded
      attributes, whatever they are. */
  function RequestUrl(p: Provider, attributes: Fields, enc: Encoder): (u: string)
    ensures '?' in u
    ensures |u| == |ApiUrl(p)| + 1 + |enc(attributes)|
    ensures u[..|ApiUrl(p)|] == ApiUrl(p) && u[|ApiUrl(p)|] == '?'
    ensures u[|ApiUrl(p)| + 1..] == enc(attributes)
  {
    var u := ApiUrl(p) + "?" + enc(attributes);
    assert u[|ApiUrl(p)|] == '?';
    u
  }

  // ---- Supadu ----

  /** `$response['data']['pagination']['pages']`. */
  function SupaduPages(body: Json): Json
  {
    Field(Field(Field(body, "data"), "pagination"), "pages")
  }

  /** The pagination block names a following page: it is present, its
      `next`, `total` and `current` are all non-empty, and `current` is not
      identical (PHP `===`) to `total`. */
  predicate SupaduHasNext(body: Json)
  {
    var pages := SupaduPages(body);
    && !Empty(pages)
    && !Empty(Field(pages, "next"))
    && !Empty(Field(pages, "total"))
    && !Empty(Field(pages, "current"))
    && Field(pages, "current") != Field(pages, "total")
  }

  /** `?` to start a query string, `&` to extend one that is already there:
      one character, after which the URL has a query string, and never a
      second `?`. */
  function QuerySeparator(url: string): (sep: string)
    ensures |sep| == 1
    ensures '?' in url + sep
    ensures '?' in url ==> '?' !in sep
  {
    if '?' !in url then "?" else "&"
  }

  /** `$url . $separator . 'page=' . $next`. */
  function PageLink(url: string, separator: string, next: string): string
  {
    url + separator + "page=" + next
  }

  /** `validateAndComposeNextPageLink`: `false` when there is no following
      page, otherwise the request URL with `page=<next>` appended. Because
      the request URL always holds a `?`, the separator is always `&`. */
  function SupaduNextPageLink(attributes: Fields, body: Json, enc: Encoder): (link: Json)
    ensures link == JBool(false) <==> !SupaduHasNext(body)
    ensures link != JBool(false) ==>
      link == JString(PageLink(RequestUrl(Supadu, attributes, enc), "&", StringCast(Field(SupaduPages(body), "next"))))
  {
    var pages := SupaduPages(body);
    var nextPage := Field(pages, "next");
    var maxPages := Field(pages, "total");
    var currentPage := Field(pages, "current");
    if Empty(pages) then JBool(false)
    else if Empty(nextPage) then JBool(false)
    else if Empty(maxPages) then JBool(false)
    else if Empty(currentPage) then JBool(false)
    else if currentPage == maxPages then JBool(false)
    else
      var requestUrl := RequestUrl(Supadu, attributes, enc);
      var separator := QuerySeparator(requestUrl);
      JString(PageLink(requestUrl, separator, StringCast(nextPage)))
  }

  // ---- the hooks ----

  /** `composeNextPageLink`: the cursor a successful response leaves behind.
      Supadu overwrites it with the derived link (possibly `false`),
      Panmcmillan copies a non-empty `NextPageUrl` or clears it to `''`,
      the single-page providers leave it alone. */
  function NextCursor(p: Provider, attributes: Fields, cursor: Json, body: Json, enc: Encoder): (r: Json)
    ensures p.SinglePage() ==> r == cursor
    ensures p.Supadu? ==> r == SupaduNextPageLink(attributes, body, enc)
    ensures p.Panmcmillan? ==> r.JString? || !Empty(r)
    ensures p.Panmcmillan? && !Empty(r) ==> r == Field(body, "NextPageUrl")
    ensures p.Panmcmillan? && !Empty(Field(body, "NextPageUrl")) ==> r == Field(body, "NextPageUrl")
    ensures p.Panmcmillan? && Empty(Field(body, "NextPageUrl")) ==> r == JString("")
  {
    match p
    case Supadu => SupaduNextPageLink(attributes, body, enc)
    case Panmcmillan =>
      var nextPageUrl := Field(body, "NextPageUrl");
      if !Empty(nextPageUrl) then nextPageUrl else JString("")
    case Tastekid => cursor
    case Goodreads => cursor
  }

  /** `calculateTotalPages`: one page for the single-page providers;
      otherwise the integer cast of the reported count, or null when the
      count is not set. */
  function TotalPages(p: Provider, body: Json): (r: Option<int>)
    ensures p.SinglePage() ==> r == Some(1)
    ensures p.Panmcmillan? ==> (r.None? <==> !Isset(Field(body, "PageCount")))
    ensures p.Panmcmillan? && r.Some? ==> r.value == IntCast(Field(body, "PageCount"))
    ensures p.Supadu? ==> (r.None? <==> !Isset(Field(SupaduPages(body), "total")))
    ensures p.Supadu? && r.Some? ==> r.value == IntCast(Field(SupaduPages(body), "total"))
  {
    match p
    case Supadu =>
      var total := Field(SupaduPages(body), "total");
      if !Isset(total) then None else Some(IntCast(total))
    case Panmcmillan =>
      var pageCount := Field(body, "PageCount");
      if !Isset(pageCount) then None else Some(IntCast(pageCount))
    case Tastekid => Some(1)
    case Goodreads => Some(1)
  }

  /** Where the new cursor comes from the response alone (Supadu and
      Panmcmillan), the previous cursor never survives: composing from any
      two prior cursors gives the same result, and composing twice with the
      same response is the same as composing once. */
  lemma NextCursorForgetsPrevious(p: Provider, attributes: Fields, c1: Json, c2: Json, body: Json, enc: Encoder)
    requires !p.SinglePage()
    ensures NextCursor(p, attributes, c1, body, enc) == NextCursor(p, attributes, c2, body, enc)
    ensures var once := NextCursor(p, attributes, c1, body, enc);
            NextCursor(p, attributes, once, body, enc) == once
  {
  }

  /** Supadu reports a total of 0 as a page count of 0, while the link
      derivation treats the same 0 as missing metadata. */
  lemma SupaduZeroTotal(attributes: Fields, body: Json, enc: Encoder)
    requires Field(SupaduPages(body), "total") == JInt(0)
    ensures TotalPages(Supadu, body) == Some(0)
    ensures SupaduNextPageLink(attributes, body, enc) == JBool(false)
  {
  }

  /** The last-page test is PHP's strict identity: a current page of 3 sent
      as a number and a total of "3" sent as text do not match, so a link
      to the next page is still produced. */
  lemma SupaduStrictLastPage(attributes: Fields, enc: Encoder)
    ensures var pages := JObject([("next", JInt(4)), ("total", JString("3")), ("current", JInt(3))]);
            var body := JObject([("data", JObject([("pagination", JObject([("pages", pages)]))]))]);
            SupaduNextPageLink(attributes, body, enc) == JString(PageLink(RequestUrl(Supadu, attributes, enc), "&", "4"))
  {
    var pages := JObject([("next", JInt(4)), ("total", JString("3")), ("current", JInt(3))]);
    var pagination := JObject([("pages", pages)]);
    var data := JObject([("pagination", pagination)]);
    var body := JObject([("data", data)]);
    assert SupaduPages(body) == pages by {
      assert Field(body, "data") == data;
      assert Field(data, "pagination") == pagination;
      assert Field(pagination, "pages") == pages;
    }
    assert Field(pages, "next") == JInt(4);
    assert Field(pages, "total") == JString("3");
    assert Field(pages, "current") == JInt(3);
    assert SupaduHasNext(body);
    assert StringCast(JInt(4)) == "4" by {
      assert Strings.IntToString(4) == [Strings.DigitChar(4)];
    }
  }

  /** A page count sent as a JSON integer or as its decimal text is
      reported as that integer. */
  lemma TotalPagesOfNumber(p: Provider, body: Json, n: int)
    requires p.Panmcmillan? ==> Field(body, "PageCount") in {JInt(n), JString(Strings.IntToString(n))}
    requires p.Supadu? ==> Field(SupaduPages(body), "total") in {JInt(n), JString(Strings.IntToString(n))}
    ensures p.SinglePage() ==> TotalPages(p, body) == Some(1)
    ensures !p.SinglePage() ==> TotalPages(p, body) == Some(n)
  {
    IntCastOfNumber(n);
  }
}

=== FILE: book_query.dfy ===
/** The book query composer (`performComposedRequest`) as a plan builder,
    the meaning of a plan over one row of the joined book view, and the
    routing rules that pick a plain composed query or the freshness ranker.
    Query execution is not modelled: a plan is data. Category, collection,
    format and author membership are answered by a `Relations` oracle. */
module BookQuery {
  import opened Wrappers
  import Strings

  // ---- the joined view ----

  /** One row of the view that joins the publisher table
      (`panmcmillan_books_*`) and the bookseller table (`supadu_books_*`)
      on ISBN-13; every column may be null. */
  datatype BookRow = BookRow(
    supaduId: Option<int>,
    supaduIsbn13: Option<string>,
    panmcmillanIsbn13: Option<string>,
    panmcmillanAuthor: Option<string>,
    panmcmillanStoredImage: Option<string>,
    supaduStoredImage: Option<string>,
    panmcmillanJacketUrl: Option<string>,
    supaduImage: Option<string>,
    panmcmillanTitle: Option<string>,
    supaduTitle: Option<string>,
    panmcmillanKeynote: Option<string>,
    supaduPrice: Option<string>,
    panmcmillanAverageRating: Option<string>,
    supaduAverageRating: Option<string>,
    supaduAgeFrom: Option<int>)

  /** Memberships answered through joins (`whereHas*` scopes). */
  datatype Relation =
    | InCategory(category: Option<string>)
    | InCollection(collection: Option<string>)
    | InFormats(formats: seq<string>)
    | ByAuthor(author: Option<string>)

  type Relations = (BookRow, Relation) -> bool

  /** `Book::PAPER_BOOKS`. */
  const PaperBooks: seq<string> := ["BC", "BB"]

  // ---- sort keys ----

  /** `CustomSortFilterStep::SORT_BY_*`; that class is not part of this
      model, the values are the ones the composer's doc comment lists. */
  const SortByNewest := "publication_date"
  const SortByCheapest := "price"
  const SortByPopular := "average_rating"

  // ---- plans ----

  datatype TextColumn = PanmcmillanKeynote | PanmcmillanTitle | SupaduTitle

  datatype Atom =
    | Related(relation: Relation, holds: bool)   // EXISTS (holds) or NOT EXISTS
    | Like(column: TextColumn, needle: string)    // column LIKE '%needle%'
    | AgeFromIs(age: int)                         // supadu_books_age_from = age

  /** A top-level `where` (AND-ed with its siblings) or a closure group whose
      members are OR-ed together. */
  datatype Clause = Where(atom: Atom) | AnyOf(group: seq<Atom>)

  datatype Order = OrderBy(column: string, direction: string)

  datatype Ordering = Columns(keys: seq<Order>) | Random

  datatype Plan = Plan(wheres: seq<Clause>, ordering: Ordering, offset: int, limit: int)

  datatype AgeRange = AgeRange(from: Option<int>, to: Option<int>)

  /** The arguments of `performComposedRequest`. */
  datatype Criteria = Criteria(
    fiction: Option<bool>,
    filterName: Option<string>,
    filterValue: Option<string>,
    sortValue: Option<string>,
    sortSide: Option<string>,
    age: Option<AgeRange>,
    offset: int,
    limit: int,
    anyFormat: bool)

  /** PHP `empty()` of an optional string. */
  predicate EmptyString(s: Option<string>)
  {
    s.None? || s.value == "" || s.value == "0"
  }

  predicate FilterIs(c: Criteria, name: string)
  {
    c.filterName == Some(name)
  }

  /** The integers `lo .. hi`, inclusive. */
  function Range(lo: int, hi: int): (r: seq<int>)
    ensures |r| == if lo <= hi then hi - lo + 1 else 0
    ensures forall i :: 0 <= i < |r| ==> r[i] == lo + i
    decreases hi - lo
  {
    if lo > hi then [] else [lo] + Range(lo + 1, hi)
  }

  /** The `age_from` values the age closure OR-s together: `from` when it
      is set, then `from + i` for `i` in `1 .. to - from` when `to` is set
      (an unset `from` casts to 0). */
  function AgeTerms(a: AgeRange): (r: seq<int>)
    ensures a.from.Some? && a.to.Some? && a.from.value < a.to.value ==>
              r == Range(a.from.value, a.to.value) && |r| == a.to.value - a.from.value + 1
    ensures a.from.Some? && (a.to.None? || a.from.value >= a.to.value) ==> r == [a.from.value]
    ensures a.from.None? && a.to.Some? ==> r == Range(1, a.to.value)
    ensures a.from.None? && a.to.None? ==> r == []
  {
    var first := if a.from.Some? then [a.from.value] else [];
    var rest :=
      if a.to.Some? then
        var ageFrom := a.from.GetOr(0);
        var ageTo := a.to.value;
        if ageFrom < ageTo then seq(ageTo - ageFrom, i requires 0 <= i < ageTo - ageFrom => ageFrom + (i + 1))
        else []
      else [];
    var r := first + rest;
    assert a.from.Some? && a.to.Some? && a.from.value < a.to.value ==> r == Range(a.from.value, a.to.value);
    assert a.from.None? && a.to.Some? ==> r == Range(1, a.to.value);
    r
  }

  /** The column rewriting of the sort block: each test sees the sort value
      left by the previous one. Cheapest orders by bookseller price;
      newest by publisher then bookseller publication date; popular by
      bookseller then publisher rating; any other value adds no ordering. */
  function SortKeys(sortValue: string, side: string): (r: seq<Order>)
    ensures sortValue == SortByCheapest ==> r == [OrderBy("supadu_books_price", side)]
    ensures sortValue == SortByNewest ==>
              r == [OrderBy("panmcmillan_books_publication_date", side), OrderBy("supadu_books_publication_date", side)]
    ensures sortValue == SortByPopular ==>
              r == [OrderBy("supadu_books_average_rating", side), OrderBy("panmcmillan_books_average_rating", side)]
    ensures sortValue !in {SortByCheapest, SortByNewest, SortByPopular} ==> r == []
  {
    var (v1, k1) :=
      if sortValue == SortByCheapest then ("supadu_books_price", [OrderBy("supadu_books_price", side)])
      else (sortValue, []);
    var (v2, k2) :=
      if v1 == SortByNewest then
        ("supadu_books_publication_date",
         [OrderBy("panmcmillan_books_publication_date", side), OrderBy("supadu_books_publication_date", side)])
      else (v1, []);
    var k3 :=
      if v2 == SortByPopular then
        [OrderBy("supadu_books_average_rating", side), OrderBy("panmcmillan_books_average_rating", side)]
      else [];
    k1 + k2 + k3
  }

  function FictionClauses(c: Criteria): seq<Clause>
  {
    if c.fiction.Some? then [Where(Related(InCategory(Some("fiction")), c.fiction.value))] else []
  }

  function CollectionClauses(c: Criteria): seq<Clause>
  {
    if FilterIs(c, "carousel") then [Where(Related(InCollection(c.filterValue), true))] else []
  }

  function GenreClauses(c: Criteria): seq<Clause>
  {
    if FilterIs(c, "genre") then [Where(Related(InCategory(c.filterValue), true))] else []
  }

  function FormatClauses(c: Criteria): seq<Clause>
  {
    if !c.anyFormat then [Where(Related(InFormats(PaperBooks), true))] else []
  }

  function AuthorClauses(c: Criteria): seq<Clause>
  {
    if FilterIs(c, "author") then [Where(Related(ByAuthor(c.filterValue), true))] else []
  }

  /** The keyword match, wrapped in its own closure so that its OR does not
      reach the sibling predicates. */
  function KeywordClauses(c: Criteria): seq<Clause>
  {
    var needle := c.filterValue.GetOr("");
    if FilterIs(c, "keyword") then
      [AnyOf([Like(PanmcmillanKeynote, needle), Like(PanmcmillanTitle, needle), Like(SupaduTitle, needle)])]
    else []
  }

  /** The age OR-group: one `_age_from = k` term per age, and no other term. */
  function AgeGroup(terms: seq<int>): (g: seq<Atom>)
    ensures |g| == |terms|
    ensures forall k :: AgeFromIs(k) in g <==> k in terms
    ensures forall a :: a in g ==> a.AgeFromIs?
  {
    var g := seq(|terms|, i requires 0 <= i < |terms| => AgeFromIs(terms[i]));
    assert forall k :: k in terms ==> AgeFromIs(k) in g by {
      forall k | k in terms ensures AgeFromIs(k) in g {
        var i :| 0 <= i < |terms| && terms[i] == k;
        assert g[i] == AgeFromIs(k);
      }
    }
    g
  }

  function AgeClauses(c: Criteria): seq<Clause>
  {
    if c.age.Some? && |AgeTerms(c.age.value)| > 0 then [AnyOf(AgeGroup(AgeTerms(c.age.value)))] else []
  }

  /** `performComposedRequest` as the plan it builds: predicates in the
      order the code attaches them (fiction, collection, genre, paper
      format, author, keyword group, age group), then the ordering (random
      when the sort value is empty), then offset and limit. A closure group
      without members is dropped, as the query builder does. */
  function Compose(c: Criteria): (p: Plan)
    ensures p.offset == c.offset && p.limit == c.limit
    ensures p.ordering.Random? <==> EmptyString(c.sortValue)
    ensures !EmptyString(c.sortValue) ==> p.ordering == Columns(SortKeys(c.sortValue.value, c.sortSide.GetOr("asc")))
  {
    var wheres :=
      FictionClauses(c) + CollectionClauses(c) + GenreClauses(c) + FormatClauses(c)
      + AuthorClauses(c) + KeywordClauses(c) + AgeClauses(c);
    var ordering :=
      if !EmptyString(c.sortValue) then Columns(SortKeys(c.sortValue.value, c.sortSide.GetOr("asc")))
      else Random;
    Plan(wheres, ordering, c.offset, c.limit)
  }

  // ---- what a plan selects ----

  function Text(row: BookRow, column: TextColumn): Option<string>
  {
    match column
    case PanmcmillanKeynote => row.panmcmillanKeynote
    case PanmcmillanTitle => row.panmcmillanTitle
    case SupaduTitle => row.supaduTitle
  }

  predicate AtomHolds(a: Atom, row: BookRow, rel: Relations)
  {
    match a
    case Related(r, holds) => rel(row, r) == holds
    case Like(column, needle) => Text(row, column).Some? && Strings.Contains(Text(row, column).value, needle)
    case AgeFromIs(age) => row.supaduAgeFrom == Some(age)
  }

  predicate ClauseHolds(cl: Clause, row: BookRow, rel: Relations)
  {
    match cl
    case Where(a) => AtomHolds(a, row, rel)
    case AnyOf(group) => exists i :: 0 <= i < |group| && AtomHolds(group[i], row, rel)
  }

  /** A row is selected when every top-level clause holds. */
  predicate Admits(wheres: seq<Clause>, row: BookRow, rel: Relations)
  {
    forall i :: 0 <= i < |wheres| ==> ClauseHolds(wheres[i], row, rel)
  }

  lemma AdmitsConcat(a: seq<Clause>, b: seq<Clause>, row: BookRow, rel: Relations)
    ensures Admits(a + b, row, rel) <==> Admits(a, row, rel) && Admits(b, row, rel)
  {
    if Admits(a, row, rel) && Admits(b, row, rel) {
      forall i | 0 <= i < |a + b| ensures ClauseHolds((a + b)[i], row, rel) {
        if i >= |a| { assert (a + b)[i] == b[i - |a|]; } else { assert (a + b)[i] == a[i]; }
      }
    }
    if Admits(a + b, row, rel) {
      forall i | 0 <= i < |a| ensures ClauseHolds(a[i], row, rel) {
        assert (a + b)[i] == a[i];
      }
      forall i | 0 <= i < |b| ensures ClauseHolds(b[i], row, rel) {
        assert (a + b)[|a| + i] == b[i];
      }
    }
  }

  // ---- the reference meaning of criteria, stated without plans ----

  /** The keyword occurs in the publisher keynote, publisher title or bookseller title. */
  predicate KeywordHit(needle: string, row: BookRow)
  {
    || (row.panmcmillanKeynote.Some? && Strings.Contains(row.panmcmillanKeynote.value, needle))
    || (row.panmcmillanTitle.Some? && Strings.Contains(row.panmcmillanTitle.value, needle))
    || (row.supaduTitle.Some? && Strings.Contains(row.supaduTitle.value, needle))
  }

  /** Which `age_from` values an age range accepts, as intervals: `from ..
      to` when `from < to`, just `from` otherwise, `1 .. to` when only `to`
      is set (and everything when that interval is empty). */
  predicate AgeAccepts(a: AgeRange, ageFrom: Option<int>)
  {
    if a.from.Some? && a.to.Some? then
      ageFrom.Some? &&
      (if a.from.value < a.to.value then a.from.value <= ageFrom.value <= a.to.value
       else ageFrom.value == a.from.value)
    else if a.from.Some? then ageFrom == a.from
    else if a.to.Some? then a.to.value <= 0 || (ageFrom.Some? && 1 <= ageFrom.value <= a.to.value)
    else true
  }

  predicate Matches(c: Criteria, row: BookRow, rel: Relations)
  {
    && (c.fiction.Some? ==> rel(row, InCategory(Some("fiction"))) == c.fiction.value)
    && (FilterIs(c, "carousel") ==> rel(row, InCollection(c.filterValue)))
    && (FilterIs(c, "genre") ==> rel(row, InCategory(c.filterValue)))
    && (!c.anyFormat ==> rel(row, InFormats(PaperBooks)))
    && (FilterIs(c, "author") ==> rel(row, ByAuthor(c.filterValue)))
    && (FilterIs(c, "keyword") ==> KeywordHit(c.filterValue.GetOr(""), row))
    && (c.age.Some? ==> AgeAccepts(c.age.value, row.supaduAgeFrom))
  }

  /** The OR expansion of an age range selects exactly the interval. */
  lemma AgeTermsSelectInterval(a: AgeRange, ageFrom: Option<int>)
    ensures |AgeTerms(a)| > 0 ==>
              ((exists i :: 0 <= i < |AgeTerms(a)| && ageFrom == Some(AgeTerms(a)[i])) <==> AgeAccepts(a, ageFrom))
    ensures |AgeTerms(a)| == 0 ==> AgeAccepts(a, ageFrom)
  {
    var terms := AgeTerms(a);
    if ageFrom.Some? && AgeAccepts(a, ageFrom) && |terms| > 0 {
      var v := ageFrom.value;
      if a.from.Some? && a.to.Some? && a.from.value < a.to.value {
        assert terms[v - a.from.value] == v;
      } else if a.from.Some? {
        assert terms[0] == v;
      } else {
        assert terms[v - 1] == v;
      }
    }
  }

  lemma AdmitsOne(cl: Clause, row: BookRow, rel: Relations)
    ensures Admits([cl], row, rel) <==> ClauseHolds(cl, row, rel)
    ensures Admits([], row, rel)
  {
    assert [cl][0] == cl;
  }

  lemma SimpleClausesSelect(c: Criteria, row: BookRow, rel: Relations)
    ensures Admits(FictionClauses(c), row, rel) <==> (c.fiction.Some? ==> rel(row, InCategory(Some("fiction"))) == c.fiction.value)
    ensures Admits(CollectionClauses(c), row, rel) <==> (FilterIs(c, "carousel") ==> rel(row, InCollection(c.filterValue)))
    ensures Admits(GenreClauses(c), row, rel) <==> (FilterIs(c, "genre") ==> rel(row, InCategory(c.filterValue)))
    ensures Admits(FormatClauses(c), row, rel) <==> (!c.anyFormat ==> rel(row, InFormats(PaperBooks)))
    ensures Admits(AuthorClauses(c), row, rel) <==> (FilterIs(c, "author") ==> rel(row, ByAuthor(c.filterValue)))
  {
    AdmitsOne(Where(Related(InCategory(Some("fiction")), c.fiction.GetOr(false))), row, rel);
    AdmitsOne(Where(Related(InCollection(c.filterValue), true)), row, rel);
    AdmitsOne(Where(Related(InCategory(c.filterValue), true)), row, rel);
    AdmitsOne(Where(Related(InFormats(PaperBooks), true)), row, rel);
    AdmitsOne(Where(Related(ByAuthor(c.filterValue), true)), row, rel);
  }

  lemma KeywordClausesSelect(c: Criteria, row: BookRow, rel: Relations)
    ensures Admits(KeywordClauses(c), row, rel) <==> (FilterIs(c, "keyword") ==> KeywordHit(c.filterValue.GetOr(""), row))
  {
    if FilterIs(c, "keyword") {
      var needle := c.filterValue.GetOr("");
      var g := [Like(PanmcmillanKeynote, needle), Like(PanmcmillanTitle, needle), Like(SupaduTitle, needle)];
      assert KeywordClauses(c) == [AnyOf(g)];
      AdmitsOne(AnyOf(g), row, rel);
      if KeywordHit(needle, row) {
        if AtomHolds(g[0], row, rel) {
        } else if AtomHolds(g[1], row, rel) {
        } else {
          assert AtomHolds(g[2], row, rel);
        }
      }
    }
  }

  lemma AgeClausesSelect(c: Criteria, row: BookRow, rel: Relations)
    ensures Admits(AgeClauses(c), row, rel) <==> (c.age.Some? ==> AgeAccepts(c.age.value, row.supaduAgeFrom))
  {
    if c.age.Some? {
      var terms := AgeTerms(c.age.value);
      AgeTermsSelectInterval(c.age.value, row.supaduAgeFrom);
      if |terms| > 0 {
        var g := AgeGroup(terms);
        assert AgeClauses(c) == [AnyOf(g)];
        AdmitsOne(AnyOf(g), row, rel);
        if ClauseHolds(AnyOf(g), row, rel) {
          var i :| 0 <= i < |g| && AtomHolds(g[i], row, rel);
          assert row.supaduAgeFrom == Some(terms[i]);
        }
        if exists i :: 0 <= i < |terms| && row.supaduAgeFrom == Some(terms[i]) {
          var i :| 0 <= i < |terms| && row.supaduAgeFrom == Some(terms[i]);
          assert AtomHolds(g[i], row, rel);
        }
      }
    }
  }

  /** The plan selects exactly the rows the criteria describe. In
      particular the keyword OR stays inside its group: a keyword filter
      only ever narrows what the sibling predicates select. */
  lemma {:induction false} ComposeSelects(c: Criteria, row: BookRow, rel: Relations)
    ensures Admits(Compose(c).wheres, row, rel) <==> Matches(c, row, rel)
  {
    var w1 := FictionClauses(c);
    var w2 := w1 + CollectionClauses(c);
    var w3 := w2 + GenreClauses(c);
    var w4 := w3 + FormatClauses(c);
    var w5 := w4 + AuthorClauses(c);
    var w6 := w5 + KeywordClauses(c);
    assert Compose(c).wheres == w6 + AgeClauses(c);
    AdmitsConcat(w6, AgeClauses(c), row, rel);
    AdmitsConcat(w5, KeywordClauses(c), row, rel);
    AdmitsConcat(w4, AuthorClauses(c), row, rel);
    AdmitsConcat(w3, FormatClauses(c), row, rel);
    AdmitsConcat(w2, GenreClauses(c), row, rel);
    AdmitsConcat(w1, CollectionClauses(c), row, rel);
    SimpleClausesSelect(c, row, rel);
    KeywordClausesSelect(c, row, rel);
    AgeClausesSelect(c, row, rel);
  }

  /** Adding a keyword filter to criteria that had no filter keeps every
      other predicate and narrows the selection by the keyword match alone. */
  lemma KeywordDoesNotLeak(c: Criteria, keyword: string, row: BookRow, rel: Relations)
    requires c.filterName.None?
    ensures var k := c.(filterName := Some("keyword"), filterValue := Some(keyword));
            Admits(Compose(k).wheres, row, rel) <==> Admits(Compose(c).wheres, row, rel) && KeywordHit(keyword, row)
  {
    ComposeSelects(c, row, rel);
    ComposeSelects(c.(filterName := Some("keyword"), filterValue := Some(keyword)), row, rel);
  }

  /** With `from = 9` and `to = 12` the age filter admits ages 9, 10, 11 and
      12 and rejects 8 and 13. */
  lemma NineToTwelve(c: Criteria, row: BookRow, rel: Relations)
    requires c.age == Some(AgeRange(Some(9), Some(12)))
    requires c.fiction.None? && c.filterName.None? && c.anyFormat
    ensures Admits(Compose(c).wheres, row, rel) <==> row.supaduAgeFrom in {Some(9), Some(10), Some(11), Some(12)}
    ensures |AgeTerms(c.age.value)| == 4
  {
    ComposeSelects(c, row, rel);
  }

  // ---- routing ----

  /** How a collection is retrieved: one composed query, or the freshness
      ranker over an over-fetched, date-sorted query cut to `limit`. */
  datatype Retrieval = Direct(plan: Plan) | FreshShuffle(overFetch: Plan, limit: int)
  {
    /** The query the route runs against the database. */
    function Query(): Plan
    {
      if Direct? then plan else overFetch
    }
  }

  /** The ranker's over-fetch: newest first, up to 100 rows, same filters. */
  function OverFetch(c: Criteria): (p: Plan)
    ensures p.limit == 100 && p.offset == c.offset
    ensures p.ordering == Columns([OrderBy("panmcmillan_books_publication_date", "desc"), OrderBy("supadu_books_publication_date", "desc")])
    ensures p.wheres == Compose(c).wheres
  {
    Compose(c.(sortValue := Some("publication_date"), sortSide := Some("desc"), limit := 100))
  }

  /** `getBooksWithSpecialSorting`: no filter and no sort gives newest with
      `asc`; a filter without a sort goes to the ranker; otherwise the
      caller's sort is used. Every route filters exactly as the caller's
      criteria say and keeps the caller's offset; only the ordering, and
      for the ranker the over-fetch size, differ. */
  function SpecialSorting(c: Criteria): (r: Retrieval)
    ensures r.Query().wheres == Compose(c).wheres
    ensures r.Query().offset == c.offset
    ensures r.FreshShuffle? <==> c.filterName.Some? && c.sortValue.None?
    ensures r.FreshShuffle? ==> r.limit == c.limit && r.overFetch.limit == 100
    ensures r.Direct? ==> r.plan.limit == c.limit
    ensures r.FreshShuffle? ==>
              r.Query().ordering == Columns([OrderBy("panmcmillan_books_publication_date", "desc"),
                                             OrderBy("supadu_books_publication_date", "desc")])
    ensures c.sortValue.None? && c.filterName.None? ==>
              r.Query().ordering == Columns([OrderBy("panmcmillan_books_publication_date", "asc"),
                                             OrderBy("supadu_books_publication_date", "asc")])
    ensures c.sortValue.Some? ==> r.Query().ordering == Compose(c).ordering
  {
    if c.filterName.None? && c.sortValue.None? then
      Direct(Compose(c.(sortValue := Some(SortByNewest), sortSide := Some("asc"))))
    else if c.sortValue.None? then
      FreshShuffle(OverFetch(c), c.limit)
    else
      Direct(Compose(c))
  }

  /** Whatever the route, a row is retrieved by its query exactly when it
      meets the caller's criteria. */
  lemma SpecialSortingSelects(c: Criteria, row: BookRow, rel: Relations)
    ensures Admits(SpecialSorting(c).Query().wheres, row, rel) <==> Matches(c, row, rel)
  {
    ComposeSelects(c, row, rel);
  }

  /** `getLatest`: no fiction or age constraint; a missing sort becomes
      newest, descending. */
  function Latest(filterName: Option<string>, filterValue: Option<string>, sortValue: Option<string>,
                  sortSide: Option<string>, offset: int, limit: int, anyFormat: bool): (r: Retrieval)
    ensures r.Direct? && r.plan.offset == offset && r.plan.limit == limit
    ensures sortValue.None? ==>
              r.plan.ordering == Columns([OrderBy("panmcmillan_books_publication_date", "desc"),
                                          OrderBy("supadu_books_publication_date", "desc")])
    ensures !EmptyString(sortValue) ==> r.plan.ordering == Columns(SortKeys(sortValue.value, sortSide.GetOr("asc")))
    ensures sortValue.Some? && EmptyString(sortValue) ==> r.plan.ordering == Random
    ensures sortValue.Some? ==>
              r.plan.ordering == Compose(Criteria(None, filterName, filterValue, sortValue, sortSide, None, offset, limit, anyFormat)).ordering
    ensures r.plan.wheres == Compose(Criteria(None, filterName, filterValue, sortValue, sortSide, None, offset, limit, anyFormat)).wheres
  {
    var (sort, side) := if sortValue.None? then (Some(SortByNewest), Some("desc")) else (sortValue, sortSide);
    Direct(Compose(Criteria(None, filterName, filterValue, sort, side, None, offset, limit, anyFormat)))
  }

  /** `getLatest` retrieves a row exactly when it meets the caller's filter
      (and the paper-only choice), with no fiction or age constraint. */
  lemma LatestSelects(filterName: Option<string>, filterValue: Option<string>, sortValue: Option<string>,
                      sortSide: Option<string>, offset: int, limit: int, anyFormat: bool, row: BookRow, rel: Relations)
    ensures var c := Criteria(None, filterName, filterValue, sortValue, sortSide, None, offset, limit, anyFormat);
            var plan := Latest(filterName, filterValue, sortValue, sortSide, offset, limit, anyFormat).plan;
            Admits(plan.wheres, row, rel) <==> Matches(c, row, rel)
  {
    ComposeSelects(Criteria(None, filterName, filterValue, sortValue, sortSide, None, offset, limit, anyFormat), row, rel);
  }

  /** `getAgeBased`: the ranker only when both the filter and the sort are
      missing, otherwise a composed query. Either way the query filters
      exactly as the caller's criteria with the age range say, and keeps
      the caller's offset. */
  function AgeBased(ageFrom: Option<int>, ageTo: Option<int>, filterName: Option<string>, filterValue: Option<string>,
                    sortValue: Option<string>, sortSide: Option<string>, offset: int, limit: int, anyFormat: bool): (r: Retrieval)
    ensures var c := Criteria(None, filterName, filterValue, sortValue, sortSide, Some(AgeRange(ageFrom, ageTo)), offset, limit, anyFormat);
            r.Query().wheres == Compose(c).wheres
    ensures r.Query().offset == offset
    ensures r.FreshShuffle? <==> sortValue.None? && filterName.None?
    ensures r.FreshShuffle? ==> r.limit == limit && r.overFetch.limit == 100
    ensures r.FreshShuffle? ==>
              r.overFetch.ordering == Columns([OrderBy("panmcmillan_books_publication_date", "desc"),
                                               OrderBy("supadu_books_publication_date", "desc")])
    ensures r.Direct? ==> r.plan.limit == limit
    ensures r.Direct? && EmptyString(sortValue) ==> r.plan.ordering == Random
    ensures r.Direct? && !EmptyString(sortValue) ==>
              r.plan.ordering == Columns(SortKeys(sortValue.value, sortSide.GetOr("asc")))
  {
    var age := Some(AgeRange(ageFrom, ageTo));
    if sortValue.None? && filterName.None? then
      FreshShuffle(OverFetch(Criteria(None, None, None, None, None, age, offset, limit, anyFormat)), limit)
    else
      Direct(Compose(Criteria(None, filterName, filterValue, sortValue, sortSide, age, offset, limit, anyFormat)))
  }

  /** Whichever route `getAgeBased` takes, its query admits a row exactly
      when the row meets the caller's filter and age range. */
  lemma AgeBasedSelects(ageFrom: Option<int>, ageTo: Option<int>, filterName: Option<string>, filterValue: Option<string>,
                        sortValue: Option<string>, sortSide: Option<string>, offset: int, limit: int, anyFormat: bool,
                        row: BookRow, rel: Relations)
    ensures var c := Criteria(None, filterName, filterValue, sortValue, sortSide, Some(AgeRange(ageFrom, ageTo)), offset, limit, anyFormat);
            var r := AgeBased(ageFrom, ageTo, filterName, filterValue, sortValue, sortSide, offset, limit, anyFormat);
            Admits(r.Query().wheres, row, rel) <==> Matches(c, row, rel)
  {
    ComposeSelects(Criteria(None, filterName, filterValue, sortValue, sortSide, Some(AgeRange(ageFrom, ageTo)), offset, limit, anyFormat), row, rel);
  }

  /** Whichever route `getAgeBased` takes, every selected row has an age
      the range accepts. */
  lemma AgeBasedHonoursAge(ageFrom: Option<int>, ageTo: Option<int>, filterName: Option<string>, filterValue: Option<string>,
                           sortValue: Option<string>, sortSide: Option<string>, offset: int, limit: int, anyFormat: bool,
                           row: BookRow, rel: Relations)
    ensures var r := AgeBased(ageFrom, ageTo, filterName, filterValue, sortValue, sortSide, offset, limit, anyFormat);
            Admits(r.Query().wheres, row, rel) ==>
              AgeAccepts(AgeRange(ageFrom, ageTo), row.supaduAgeFrom)
  {
    AgeBasedSelects(ageFrom, ageTo, filterName, filterValue, sortValue, sortSide, offset, limit, anyFormat, row, rel);
  }
}

=== FILE: carousel.dfy ===
/** Turning joined book rows into carousel entries (`makeCarouselFromCollection`):
    per field, a fixed priority between the publisher and the bookseller
    columns; text shortening (`prettyStringCutter`); and the Amazon search
    links. The filesystem check, the site URL, the image directories, the
    bookseller author lookup and the HTML clean-up are parameters. */
module Carousel {
  import opened Wrappers
  import Strings
  import opened BookQuery

  /** `Book::$book_description_length`, the default cut. */
  const DescriptionLength := 320

  /** Titles are cut to this length in a carousel. */
  const TitleLength := 80

  /** `prettyStringCutter`: a string no longer than the limit is returned
      as is; a longer one keeps its first `max - 3` characters and gains
      `...`, so it is exactly `max` long (for a limit of at least 3). */
  function PrettyStringCutter(s: string, maxLength: Option<int>): (r: string)
    ensures var m := maxLength.GetOr(DescriptionLength);
            && (|s| <= m ==> r == s)
            && (|s| > m >= 3 ==> r == s[..m - 3] + "..." && |r| == m)
            && (m >= 3 ==> |r| <= m)
            && (|s| > m ==> |r| >= 3 && r[|r| - 3..] == "...")
  {
    var m := maxLength.GetOr(DescriptionLength);
    if |s| > m then
      var cut := Strings.PrefixSubstr(s, m);
      Strings.PrefixSubstr(cut, m - 3) + "..."
    else s
  }

  /** Below a limit of 3 the ellipsis overshoots: cutting "abcdef" to 2
      gives "a...". Book.php cuts titles to 80 and otherwise uses the
      default 320. */
  lemma CutterBelowThree()
    ensures PrettyStringCutter("abcdef", Some(2)) == "a..."
  {
  }

  // ---- the projection ----

  /** Where stored images live and how they are served. */
  datatype Assets = Assets(
    siteUrl: string,
    panmcmillanImageDir: string,
    supaduImageDir: string,
    panmcmillanImageDirFullPath: string,
    supaduImageDirFullPath: string)

  /** The collaborators the projection consults: `file_exists`, the
      bookseller author names of a bookseller book id, and `clearString`. */
  datatype Env = Env(
    assets: Assets,
    fileExists: string -> bool,
    supaduAuthors: int -> seq<string>,
    clean: string -> string)

  datatype Entry = Entry(
    isbn13: Option<string>,
    author: Option<string>,
    imageUrl: Option<string>,
    title: string,
    price: Option<string>,
    rating: Option<string>)

  /** `!empty($row['supadu_books_id'])`. */
  predicate HasSupaduId(row: BookRow) { row.supaduId.Some? && row.supaduId.value != 0 }

  predicate PanmcmillanStoredUsable(row: BookRow, env: Env)
  {
    !EmptyString(row.panmcmillanStoredImage)
    && env.fileExists(env.assets.panmcmillanImageDirFullPath + row.panmcmillanStoredImage.value)
  }

  predicate SupaduStoredUsable(row: BookRow, env: Env)
  {
    !EmptyString(row.supaduStoredImage)
    && env.fileExists(env.assets.supaduImageDirFullPath + row.supaduStoredImage.value)
  }

  function ServedUrl(assets: Assets, dir: string, file: string): string
  {
    assets.siteUrl + "/" + dir + file
  }

  /** Cover image: a stored publisher file that exists, else a stored
      bookseller file that exists, else the publisher jacket URL, else the
      bookseller image URL. */
  function ImageUrl(row: BookRow, env: Env): (r: Option<string>)
    ensures PanmcmillanStoredUsable(row, env) ==>
              r == Some(ServedUrl(env.assets, env.assets.panmcmillanImageDir, row.panmcmillanStoredImage.value))
    ensures !PanmcmillanStoredUsable(row, env) && SupaduStoredUsable(row, env) ==>
              r == Some(ServedUrl(env.assets, env.assets.supaduImageDir, row.supaduStoredImage.value))
    ensures !PanmcmillanStoredUsable(row, env) && !SupaduStoredUsable(row, env) ==>
              r == row.panmcmillanJacketUrl.OrElse(row.supaduImage)
    ensures r.None? ==> row.panmcmillanJacketUrl.None? && row.supaduImage.None?
  {
    if PanmcmillanStoredUsable(row, env) then
      Some(ServedUrl(env.assets, env.assets.panmcmillanImageDir, row.panmcmillanStoredImage.value))
    else if SupaduStoredUsable(row, env) then
      Some(ServedUrl(env.assets, env.assets.supaduImageDir, row.supaduStoredImage.value))
    else if row.panmcmillanJacketUrl.Some? then row.panmcmillanJacketUrl
    else row.supaduImage
  }

  /** `$authorsSupadu` after a row: the joined bookseller names when the row
      has a bookseller id, otherwise whatever it held before. */
  function SupaduAuthorsAfter(row: BookRow, env: Env, held: Option<string>): Option<string>
  {
    if HasSupaduId(row) then Some(Strings.Join(env.supaduAuthors(row.supaduId.value), ", ")) else held
  }

  /** The entry for one row, given the current value of `$authorsSupadu`:
      an empty value falls back to the publisher author. */
  function EntryFor(row: BookRow, env: Env, authors: Option<string>): (e: Entry)
    ensures e.isbn13 == row.supaduIsbn13.OrElse(row.panmcmillanIsbn13)
    ensures e.isbn13.None? <==> row.supaduIsbn13.None? && row.panmcmillanIsbn13.None?
    ensures e.author == if EmptyString(authors) then row.panmcmillanAuthor else authors
    ensures e.imageUrl == ImageUrl(row, env)
    ensures |e.title| <= TitleLength
    ensures e.title == PrettyStringCutter(env.clean(row.panmcmillanTitle.OrElse(row.supaduTitle).GetOr("")), Some(TitleLength))
    ensures e.price == row.supaduPrice
    ensures e.rating == row.panmcmillanAverageRating.OrElse(row.supaduAverageRating)
  {
    var title := row.panmcmillanTitle.OrElse(row.supaduTitle).GetOr("");
    Entry(
      row.supaduIsbn13.OrElse(row.panmcmillanIsbn13),
      if EmptyString(authors) then row.panmcmillanAuthor else authors,
      ImageUrl(row, env),
      PrettyStringCutter(env.clean(title), Some(TitleLength)),
      row.supaduPrice,
      row.panmcmillanAverageRating.OrElse(row.supaduAverageRating))
  }

  /** `makeCarouselFromCollection` as written: `$authorsSupadu` is set only
      for rows with a bookseller id and is never reset, so it carries over
      to later rows. */
  function ProjectAsWritten(rows: seq<BookRow>, env: Env, held: Option<string>): (r: seq<Entry>)
    ensures |r| == |rows|
    decreases |rows|
  {
    if |rows| == 0 then []
    else
      var authors := SupaduAuthorsAfter(rows[0], env, held);
      [EntryFor(rows[0], env, authors)] + ProjectAsWritten(rows[1..], env, authors)
  }

  /** The author of one row on its own: the comma-joined bookseller names
      when the row has a bookseller id and they join to a truthy string,
      else the publisher author. */
  function RowAuthor(row: BookRow, env: Env): (a: Option<string>)
    ensures HasSupaduId(row) && !EmptyString(Some(Strings.Join(env.supaduAuthors(row.supaduId.value), ", "))) ==>
              a == Some(Strings.Join(env.supaduAuthors(row.supaduId.value), ", "))
    ensures HasSupaduId(row) && EmptyString(Some(Strings.Join(env.supaduAuthors(row.supaduId.value), ", "))) ==>
              a == row.panmcmillanAuthor
    ensures !HasSupaduId(row) ==> a == row.panmcmillanAuthor
  {
    EntryFor(row, env, SupaduAuthorsAfter(row, env, None)).author
  }

  /** The projection with the author decided per row. Each entry takes its
      ISBN, image, title, price and rating from its own row by the
      priorities above, and its author from its own row alone. */
  function ProjectCarousel(rows: seq<BookRow>, env: Env): (r: seq<Entry>)
    ensures |r| == |rows|
    ensures forall i :: 0 <= i < |r| ==> r[i] == EntryFor(rows[i], env, SupaduAuthorsAfter(rows[i], env, None))
    ensures forall i :: 0 <= i < |r| ==> r[i].author == RowAuthor(rows[i], env)
  {
    seq(|rows|, i requires 0 <= i < |rows| => EntryFor(rows[i], env, SupaduAuthorsAfter(rows[i], env, None)))
  }

  /** The value `$authorsSupadu` holds while row `i` is projected: the
      authors of the nearest row at or before `i` that has a bookseller id,
      or the value held before the first row. */
  function HeldAt(rows: seq<BookRow>, env: Env, held: Option<string>, i: nat): (a: Option<string>)
    requires i < |rows|
    ensures HasSupaduId(rows[i]) ==> a == SupaduAuthorsAfter(rows[i], env, None)
    ensures !HasSupaduId(rows[i]) && i == 0 ==> a == held
    ensures !HasSupaduId(rows[i]) && i > 0 ==> a == HeldAt(rows, env, held, i - 1)
    decreases i
  {
    var after := SupaduAuthorsAfter(rows[0], env, held);
    if i == 0 then after else HeldAt(rows[1..], env, after, i - 1)
  }

  /** Row `i` of the as-written projection is that row's entry under the
      value held at that point. */
  lemma {:induction false} AsWrittenAt(rows: seq<BookRow>, env: Env, held: Option<string>, i: nat)
    requires i < |rows|
    ensures ProjectAsWritten(rows, env, held)[i] == EntryFor(rows[i], env, HeldAt(rows, env, held, i))
    decreases i
  {
    if i > 0 {
      var after := SupaduAuthorsAfter(rows[0], env, held);
      AsWrittenAt(rows[1..], env, after, i - 1);
    }
  }

  /** The carried-over author is the only difference: every other field of
      the as-written projection matches the per-row one, and when every
      row has a bookseller id the two agree completely. */
  lemma AsWrittenDiffersOnlyInAuthor(rows: seq<BookRow>, env: Env, held: Option<string>)
    ensures var w := ProjectAsWritten(rows, env, held);
            var p := ProjectCarousel(rows, env);
            forall i :: 0 <= i < |rows| ==> w[i].(author := p[i].author) == p[i]
    ensures (forall i :: 0 <= i < |rows| ==> HasSupaduId(rows[i])) ==>
              ProjectAsWritten(rows, env, held) == ProjectCarousel(rows, env)
  {
    var w := ProjectAsWritten(rows, env, held);
    var p := ProjectCarousel(rows, env);
    forall i | 0 <= i < |rows|
      ensures w[i].(author := p[i].author) == p[i]
      ensures HasSupaduId(rows[i]) ==> w[i] == p[i]
    {
      AsWrittenAt(rows, env, held, i);
    }
  }

  /** A row without a bookseller id, after one with bookseller authors,
      shows the earlier row's authors instead of its own publisher author. */
  lemma AuthorLeaksToNextRow(env: Env, first: BookRow, second: BookRow)
    requires first.supaduId == Some(7) && env.supaduAuthors(7) == ["Ann Author"]
    requires second.supaduId.None? && second.panmcmillanAuthor == Some("Bob Writer")
    ensures ProjectAsWritten([first, second], env, None)[1].author == Some("Ann Author")
    ensures ProjectCarousel([first, second], env)[1].author == Some("Bob Writer")
  {
    assert Strings.Join(["Ann Author"], ", ") == "Ann Author";
    assert [first, second][1..] == [second];
  }

  /** A row present in both sources, with no bookseller author links, shows
      the publisher author. */
  lemma PublisherAuthorWhenNoLinks(row: BookRow, env: Env)
    requires HasSupaduId(row) && env.supaduAuthors(row.supaduId.value) == []
    requires row.panmcmillanAuthor == Some("Jane Doe")
    ensures ProjectCarousel([row], env)[0].author == Some("Jane Doe")
  {
  }

  // ---- Amazon links ----

  const AmazonSearchPrefix := "https://www.amazon.co.uk/s/ref=nb_sb_noss?url=search-alias%3Daps&x=0&y=0&field-keywords="

  /** `getAmazonLink`: an Amazon search for the ISBN. */
  function AmazonLink(isbn13: string): (r: string)
    ensures |r| == |AmazonSearchPrefix| + |isbn13|
    ensures r[..|AmazonSearchPrefix|] == AmazonSearchPrefix && r[|AmazonSearchPrefix|..] == isbn13
  {
    AmazonSearchPrefix + isbn13
  }

  /** The ISBN an Amazon search link was made for. */
  function IsbnOfAmazonLink(link: string): Option<string>
  {
    if AmazonSearchPrefix <= link then Some(link[|AmazonSearchPrefix|..]) else None
  }

  /** `checkForAmazonUrl`: with any format, a search for the book's own
      ISBN; for paper only, a search for the ISBN of a paper edition found
      in the format tables (`paperIsbn13`), falling back to the book's own. */
  function CheckForAmazonUrl(isbn13: string, anyFormat: bool, paperIsbn13: Option<string>): (r: string)
    ensures IsbnOfAmazonLink(r) == Some(if anyFormat then isbn13 else paperIsbn13.GetOr(isbn13))
  {
    if anyFormat then AmazonLink(isbn13) else AmazonLink(paperIsbn13.GetOr(isbn13))
  }
}

=== FILE: json.dfy ===
/** Decoded JSON as PHP sees it after `json_decode($body, true)`, and the PHP
    value semantics the core relies on: `empty`, `isset`, reading a key,
    the `(int)` cast, string conversion, and the ordered key/value arrays
    that also hold request attributes and headers. Fractional numbers are
    not modelled. */
module PhpJson {
  import opened Wrappers
  import Strings

  datatype Json =
    | JNull
    | JBool(b: bool)
    | JInt(i: int)
    | JString(s: string)
    | JArray(items: seq<Json>)
    | JObject(fields: Fields)

  /** A PHP array with string keys, in insertion order. */
  type Fields = seq<(string, Json)>

  function Keys(fs: Fields): set<string>
  {
    set i | 0 <= i < |fs| :: fs[i].0
  }

  lemma KeysCons(fs: Fields)
    requires |fs| > 0
    ensures Keys(fs) == {fs[0].0} + Keys(fs[1..])
  {
    var tail := fs[1..];
    forall k | k in Keys(fs) ensures k in {fs[0].0} + Keys(tail) {
      var i :| 0 <= i < |fs| && fs[i].0 == k;
      if i > 0 { assert tail[i - 1] == fs[i]; }
    }
    forall k | k in Keys(tail) ensures k in Keys(fs) {
      var i :| 0 <= i < |tail| && tail[i].0 == k;
      assert fs[i + 1] == tail[i];
    }
  }

  /** `$fs[$key]` when the key is present. */
  function Lookup(fs: Fields, key: string): (r: Option<Json>)
    ensures r.Some? <==> key in Keys(fs)
    ensures r.Some? ==> (key, r.value) in fs
    decreases |fs|
  {
    if |fs| == 0 then None
    else if fs[0].0 == key then Some(fs[0].1)
    else
      KeysCons(fs);
      Lookup(fs[1..], key)
  }

  /** `$fs[$key] = $v`: an existing key keeps its position and gets the new
      value, a new key is appended. */
  function Put(fs: Fields, key: string, v: Json): (r: Fields)
    ensures Lookup(r, key) == Some(v)
    ensures forall k :: k != key ==> Lookup(r, k) == Lookup(fs, k)
    ensures Keys(r) == Keys(fs) + {key}
    ensures |r| == if key in Keys(fs) then |fs| else |fs| + 1
    ensures key !in Keys(fs) ==> r == fs + [(key, v)]
    ensures key in Keys(fs) ==> forall i :: 0 <= i < |fs| ==> r[i].0 == fs[i].0
    ensures key in Keys(fs) ==> forall i :: 0 <= i < |fs| && fs[i].0 != key ==> r[i] == fs[i]
    decreases |fs|
  {
    if |fs| == 0 then [(key, v)]
    else if fs[0].0 == key then
      var r := [(key, v)] + fs[1..];
      KeysCons(fs);
      KeysCons(r);
      assert r[1..] == fs[1..];
      assert forall i :: 1 <= i < |fs| ==> r[i] == fs[i];
      r
    else
      var rest := Put(fs[1..], key, v);
      var r := [fs[0]] + rest;
      assert r[1..] == rest;
      KeysCons(fs);
      KeysCons(r);
      assert key !in Keys(fs) ==> rest == fs[1..] + [(key, v)] && r == fs + [(key, v)];
      assert forall i :: 1 <= i < |r| ==> r[i] == rest[i - 1];
      r
  }

  /** PHP's array union `$left + $right`: every key of `$left` keeps its
      value, and only the keys `$left` lacks are taken from `$right`. */
  function Union(left: Fields, right: Fields): (r: Fields)
    ensures forall k :: Lookup(r, k) == if k in Keys(left) then Lookup(left, k) else Lookup(right, k)
    ensures Keys(r) == Keys(left) + Keys(right)
    decreases |right|
  {
    if |right| == 0 then left
    else
      KeysCons(right);
      var (k, v) := right[0];
      if k in Keys(left) then Union(left, right[1..])
      else
        Append(left, k, v);
        Union(left + [(k, v)], right[1..])
  }

  /** Appending a new key: it reads as the new value, every other key as
      before. */
  lemma Append(fs: Fields, key: string, v: Json)
    requires key !in Keys(fs)
    ensures forall k :: Lookup(fs + [(key, v)], k) == if k == key then Some(v) else Lookup(fs, k)
    ensures Keys(fs + [(key, v)]) == Keys(fs) + {key}
  {
    assert Put(fs, key, v) == fs + [(key, v)];
  }

  /** `$j[$key]` read inside `empty()`, `isset()` or `??`: a missing key, or
      any value that is not an array, reads as null. */
  function Field(j: Json, key: string): (r: Json)
    ensures r != JNull ==> j.JObject? && Lookup(j.fields, key) == Some(r)
  {
    if j.JObject? then Lookup(j.fields, key).GetOr(JNull) else JNull
  }

  /** PHP's `empty()`: null, false, 0, "", "0" and the empty array. */
  predicate Empty(j: Json)
  {
    match j
    case JNull => true
    case JBool(b) => !b
    case JInt(i) => i == 0
    case JString(s) => s == "" || s == "0"
    case JArray(items) => |items| == 0
    case JObject(fields) => |fields| == 0
  }

  /** PHP's `isset()` of a value that has been read. */
  predicate Isset(j: Json) { j != JNull }

  /** PHP's `(int)` cast. */
  function IntCast(j: Json): int
  {
    match j
    case JNull => 0
    case JBool(b) => if b then 1 else 0
    case JInt(i) => i
    case JString(s) => Strings.ParseInt(s)
    case JArray(items) => if |items| == 0 then 0 else 1
    case JObject(fields) => if |fields| == 0 then 0 else 1
  }

  /** PHP's conversion to string, as done by the `.` operator. */
  function StringCast(j: Json): string
  {
    match j
    case JNull => ""
    case JBool(b) => if b then "1" else ""
    case JInt(i) => Strings.IntToString(i)
    case JString(s) => s
    case JArray(_) => "Array"
    case JObject(_) => "Array"
  }

  /** A number sent as JSON text or as a JSON integer casts back to itself. */
  lemma IntCastOfNumber(n: int)
    ensures IntCast(JInt(n)) == n
    ensures IntCast(JString(Strings.IntToString(n))) == n
  {
    Strings.ParseIntToString(n);
  }
}

=== FILE: providers.dfy ===
/** Construction and attribute setters of the four concrete clients. Each
    setter writes one attribute key and leaves every other key, and every
    other part of the client (provider, headers, options, counter, cursor,
    request log), as it was. API keys and tokens read from the environment
    are parameters. */
module Providers {
  import opened Wrappers
  import opened PhpJson
  import opened Adapters
  import opened AbstractApi
  import Strings

  /** `$this->apiAttributes[$key] = $value`. */
  function WithAttribute(c: Client, key: string, value: Json): (r: Client)
    ensures Lookup(r.attributes, key) == Some(value)
    ensures forall k :: k != key ==> Lookup(r.attributes, k) == Lookup(c.attributes, k)
    ensures r == c.(attributes := r.attributes)
  {
    c.(attributes := Put(c.attributes, key, value))
  }

  // ---- Supadu ----

  /** Supadu's constructor: the `x-apikey` and gzip headers and `category_data=1`. */
  function NewSupadu(token: Json): (c: Client)
    ensures c.provider == Supadu && c.counter == 0 && c.cursor == JString("")
    ensures Lookup(c.headers, "x-apikey") == Some(token)
    ensures Lookup(c.headers, "Accept-Encoding") == Some(JString("gzip"))
    ensures Keys(c.headers) == {"x-apikey", "Accept-Encoding"}
    ensures c.attributes == [("category_data", JInt(1))]
  {
    var c := SetHeader(NewClient(Supadu), "x-apikey", token);
    var c := SetHeader(c, "Accept-Encoding", JString("gzip"));
    c.(attributes := Put(c.attributes, "category_data", JInt(1)))
  }

  datatype SupaduParam = Keyword | Page | Amount | Collection

  function SupaduKey(p: SupaduParam): string
  {
    match p
    case Keyword => "keyword"
    case Page => "page"
    case Amount => "amount"
    case Collection => "collection"
  }

  /** `setKeyword`, `setPage`, `setAmount`, `setCollection`. */
  function SupaduSet(c: Client, param: SupaduParam, value: Json): (r: Client)
    requires c.provider == Supadu
    ensures Lookup(r.attributes, SupaduKey(param)) == Some(value)
    ensures forall k :: k != SupaduKey(param) ==> Lookup(r.attributes, k) == Lookup(c.attributes, k)
    ensures r == c.(attributes := r.attributes)
  {
    WithAttribute(c, SupaduKey(param), value)
  }

  /** `getBookByIsbn`: one fetch of the single-book URL followed by the ISBN. */
  function GetBookByIsbn(c: Client, isbn: string, enc: Encoder, respond: Transport): (r: Fetched)
    requires c.provider == Supadu
    ensures forall i :: |c.sent| <= i < |r.client.sent| ==>
              r.client.sent[i].url == JString(SupaduSingleBookUrl + isbn)
    ensures |c.sent| < |r.client.sent| <= |c.sent| + Budget(c.counter) + 1
  {
    FetchCharacterised(c, JString(SupaduSingleBookUrl + isbn), enc, respond);
    Fetch(c, JString(SupaduSingleBookUrl + isbn), enc, respond)
  }

  // ---- Panmcmillan ----

  /** A fresh Panmcmillan client has no attributes, so its first page is the
      endpoint followed by `?` and the encoding of nothing. */
  function NewPanmcmillan(): (c: Client)
    ensures c.provider == Panmcmillan && c.attributes == [] && c.headers == []
    ensures forall enc: Encoder :: enc([]) == "" ==> RequestUrl(c.provider, c.attributes, enc) == ApiUrl(Panmcmillan) + "?"
  {
    NewClient(Panmcmillan)
  }

  datatype PanmcmillanParam =
    | TitleContains | AuthorContains | Isbn
    | ReadingTimeLessThan | ReadingTimeGreaterThan
    | PublicationDateLessThan | PublicationDateGreaterThan

  function PanmcmillanKey(p: PanmcmillanParam): string
  {
    match p
    case TitleContains => "titlecontains"
    case AuthorContains => "authorcontains"
    case Isbn => "isbn"
    case ReadingTimeLessThan => "readingtimelessthan"
    case ReadingTimeGreaterThan => "readingtimegreaterthan"
    case PublicationDateLessThan => "publicationdatelessthan"
    case PublicationDateGreaterThan => "publicationdategreaterthan"
  }

  /** The seven Panmcmillan attribute setters. */
  function PanmcmillanSet(c: Client, param: PanmcmillanParam, value: Json): (r: Client)
    requires c.provider == Panmcmillan
    ensures Lookup(r.attributes, PanmcmillanKey(param)) == Some(value)
    ensures forall k :: k != PanmcmillanKey(param) ==> Lookup(r.attributes, k) == Lookup(c.attributes, k)
    ensures r == c.(attributes := r.attributes)
  {
    WithAttribute(c, PanmcmillanKey(param), value)
  }

  /** Distinct setters write distinct keys. */
  lemma PanmcmillanKeysDistinct(p: PanmcmillanParam, q: PanmcmillanParam)
    ensures PanmcmillanKey(p) == PanmcmillanKey(q) <==> p == q
  {
  }

  // ---- Tastekid ----

  datatype TastekidParam = Key | Query | Type

  function TastekidKey(p: TastekidParam): string
  {
    match p
    case Key => "k"
    case Query => "q"
    case Type => "type"
  }

  /** Streaming with TLS peer verification switched off. */
  const TastekidOptions: Fields :=
    [("stream", JBool(true)),
     ("stream_context", JObject([("ssl", JObject([("verify_peer", JBool(false)), ("verify_peer_name", JBool(false))]))]))]

  /** `setKey`, `setQuery`, `setType`. */
  function TastekidSet(c: Client, param: TastekidParam, value: Json): (r: Client)
    requires c.provider == Tastekid
    ensures Lookup(r.attributes, TastekidKey(param)) == Some(value)
    ensures forall k :: k != TastekidKey(param) ==> Lookup(r.attributes, k) == Lookup(c.attributes, k)
    ensures r == c.(attributes := r.attributes)
  {
    WithAttribute(c, TastekidKey(param), value)
  }

  /** Tastekid's constructor: the API key under `k` and the streaming options. */
  function NewTastekid(key: Json): (c: Client)
    ensures c.provider == Tastekid && c.counter == 0 && c.cursor == JString("")
    ensures c.attributes == [("k", key)]
    ensures Lookup(c.options, "stream") == Some(JBool(true))
    ensures Field(Field(Field(JObject(c.options), "stream_context"), "ssl"), "verify_peer") == JBool(false)
    ensures Field(Field(Field(JObject(c.options), "stream_context"), "ssl"), "verify_peer_name") == JBool(false)
  {
    TastekidSet(NewClient(Tastekid), Key, key).(options := TastekidOptions)
  }

  // ---- Goodreads ----

  /** `setKey`. */
  function GoodreadsSetKey(c: Client, key: Json): (r: Client)
    requires c.provider == Goodreads
    ensures Lookup(r.attributes, "key") == Some(key)
    ensures forall k :: k != "key" ==> Lookup(r.attributes, k) == Lookup(c.attributes, k)
    ensures r == c.(attributes := r.attributes)
  {
    WithAttribute(c, "key", key)
  }

  /** `setIsbns`: the list joined by commas, under `isbns`. The joined text
      gains no space, and splitting it at the commas gives the list back
      when no ISBN contains a comma. */
  function GoodreadsSetIsbns(c: Client, isbns: seq<string>): (r: Client)
    requires c.provider == Goodreads
    ensures Lookup(r.attributes, "isbns") == Some(JString(Strings.Join(isbns, ",")))
    ensures forall k :: k != "isbns" ==> Lookup(r.attributes, k) == Lookup(c.attributes, k)
    ensures r == c.(attributes := r.attributes)
    ensures (forall i :: 0 <= i < |isbns| ==> ' ' !in isbns[i]) ==> ' ' !in Strings.Join(isbns, ",")
    ensures |isbns| >= 1 && (forall i :: 0 <= i < |isbns| ==> ',' !in isbns[i]) ==>
              Strings.Split(Strings.Join(isbns, ","), ',') == isbns
  {
    CommaJoin(isbns);
    WithAttribute(c, "isbns", JString(Strings.Join(isbns, ",")))
  }

  lemma CommaJoin(isbns: seq<string>)
    ensures (forall i :: 0 <= i < |isbns| ==> ' ' !in isbns[i]) ==> ' ' !in Strings.Join(isbns, ",")
    ensures |isbns| >= 1 && (forall i :: 0 <= i < |isbns| ==> ',' !in isbns[i]) ==>
              Strings.Split(Strings.Join(isbns, ","), ',') == isbns
  {
    if forall i :: 0 <= i < |isbns| ==> ' ' !in isbns[i] {
      Strings.JoinAddsOnlySeparator(isbns, ",", ' ');
    }
    if |isbns| >= 1 && forall i :: 0 <= i < |isbns| ==> ',' !in isbns[i] {
      Strings.SplitJoin(isbns, ',');
    }
  }

  /** Goodreads's constructor calls `setKey`, so a fresh instance always has a `key`. */
  function NewGoodreads(key: Json): (c: Client)
    ensures c.provider == Goodreads && c.counter == 0 && c.cursor == JString("")
    ensures Lookup(c.attributes, "key") == Some(key)
  {
    GoodreadsSetKey(NewClient(Goodreads), key)
  }
}

=== FILE: ranker.dfy ===
/** The freshness ranker (`getTwoBooksSortedByDateAndRestByRand`): keep the
    two newest rows of a date-sorted over-fetch, shuffle the rest, drop
    repeated rows keeping first occurrences (`unique`), then cut to the
    caller's limit (`take`). The shuffle is any permutation, supplied by
    the caller. */
module Ranker {

  predicate NoDuplicates<T(==)>(s: seq<T>)
  {
    forall i, j :: 0 <= i < j < |s| ==> s[i] != s[j]
  }

  function Elements<T>(s: seq<T>): set<T>
  {
    set x | x in s
  }

  /** `array_slice($s, $n)`. */
  function Drop<T>(s: seq<T>, n: nat): seq<T>
  {
    if n <= |s| then s[n..] else []
  }

  /** `Collection::take`: the first `n` items, or the last `-n` when `n` is
      negative; either way as many as there are when `s` is shorter. */
  function Take<T>(s: seq<T>, n: int): (r: seq<T>)
    ensures |r| == Min(if n >= 0 then n else -n, |s|)
    ensures n >= 0 ==> r <= s
    ensures n < 0 ==> r == s[|s| - |r|..]
    ensures Elements(r) <= Elements(s)
    ensures NoDuplicates(s) ==> NoDuplicates(r)
  {
    var start := if n >= 0 || |s| + n <= 0 then 0 else |s| + n;
    var end := if n >= 0 && n <= |s| then n else |s|;
    SliceKeeps(s, start, end);
    s[start..end]
  }

  /** A slice holds only items of the sequence, and no duplicate if the
      sequence has none. */
  lemma SliceKeeps<T>(s: seq<T>, start: nat, end: nat)
    requires start <= end <= |s|
    ensures Elements(s[start..end]) <= Elements(s)
    ensures NoDuplicates(s) ==> NoDuplicates(s[start..end])
  {
    var r := s[start..end];
    forall i, j | 0 <= i < j < |r| && NoDuplicates(s) ensures r[i] != r[j] {
      assert r[i] == s[start + i] && r[j] == s[start + j];
    }
    forall x | x in r ensures x in s {
      var i :| 0 <= i < |r| && r[i] == x;
      assert s[start + i] == x;
    }
  }

  /** `unique()` on items not in `seen`: first occurrences, in order. */
  function DedupFrom<T(==)>(s: seq<T>, seen: set<T>): (r: seq<T>)
    ensures NoDuplicates(r)
    ensures Elements(r) == Elements(s) - seen
    ensures |r| <= |s|
    ensures |s| > 0 && s[0] !in seen ==> |r| > 0 && r[0] == s[0]
    decreases |s|
  {
    if |s| == 0 then []
    else if s[0] in seen then
      var r := DedupFrom(s[1..], seen);
      assert Elements(s) == {s[0]} + Elements(s[1..]) by { assert s == [s[0]] + s[1..]; }
      r
    else
      var rest := DedupFrom(s[1..], seen + {s[0]});
      var r := [s[0]] + rest;
      assert Elements(s) == {s[0]} + Elements(s[1..]) by { assert s == [s[0]] + s[1..]; }
      assert Elements(r) == {s[0]} + Elements(rest);
      assert s[0] !in rest;
      r
  }

  function Dedup<T(==)>(s: seq<T>): (r: seq<T>)
    ensures NoDuplicates(r) && Elements(r) == Elements(s)
  {
    DedupFrom(s, {})
  }

  lemma {:induction false} NoDuplicatesCount<T>(s: seq<T>)
    requires NoDuplicates(s)
    ensures |Elements(s)| == |s|
    decreases |s|
  {
    if |s| > 0 {
      assert Elements(s) == {s[0]} + Elements(s[1..]) by { assert s == [s[0]] + s[1..]; }
      assert s[0] !in Elements(s[1..]);
      NoDuplicatesCount(s[1..]);
    }
  }

  lemma {:induction false} ElementsCount<T>(s: seq<T>)
    ensures |Elements(s)| <= |s|
    decreases |s|
  {
    if |s| > 0 {
      assert Elements(s) == {s[0]} + Elements(s[1..]) by { assert s == [s[0]] + s[1..]; }
      ElementsCount(s[1..]);
    }
  }

  /** When the first two items differ, de-duplication keeps them in front. */
  lemma DedupKeepsDistinctPrefix<T>(s: seq<T>)
    requires |s| >= 2 && s[0] != s[1]
    ensures |Dedup(s)| >= 2 && Dedup(s)[..2] == s[..2]
  {
    var rest := DedupFrom(s[1..], {s[0]});
    assert s[1..][0] == s[1] && s[1] !in {s[0]};
    var none: set<T> := {};
    assert none + {s[0]} == {s[0]};
    assert Dedup(s) == [s[0]] + rest;
  }

  lemma MultisetElements<T>(a: seq<T>, b: seq<T>)
    requires multiset(a) == multiset(b)
    ensures Elements(a) == Elements(b)
  {
    forall x ensures x in a <==> x in b {
      assert x in a <==> x in multiset(a);
      assert x in b <==> x in multiset(b);
    }
  }

  function Min(a: int, b: int): int { if a <= b then a else b }

  /** The ranker. `shuffledRest` is the shuffle's output: a permutation of
      everything after the first two fetched rows. */
  function Rank<T(==)>(fetched: seq<T>, shuffledRest: seq<T>, limit: int): (r: seq<T>)
    requires multiset(shuffledRest) == multiset(Drop(fetched, 2))
    ensures |fetched| == 0 ==> r == []
    ensures NoDuplicates(r)
    ensures Elements(r) <= Elements(fetched)
    ensures limit >= 0 ==> |r| == Min(limit, |Elements(fetched)|)
    ensures limit < 0 ==> |r| == Min(-limit, |Elements(fetched)|)
    ensures limit >= |fetched| ==> Elements(r) == Elements(fetched)
    ensures limit >= 1 && |fetched| >= 1 ==> |r| >= 1 && r[0] == fetched[0]
    ensures limit >= 2 && |fetched| >= 2 && fetched[0] != fetched[1] ==> |r| >= 2 && r[..2] == fetched[..2]
  {
    if |fetched| == 0 then []
    else
      var newest := if |fetched| <= 2 then fetched else fetched[..2];
      var merged := newest + shuffledRest;
      var unique := Dedup(merged);
      RankFacts(fetched, shuffledRest, newest, limit);
      TakeFront(unique, limit, |fetched|);
      Take(unique, limit)
  }

  /** Cutting a non-negative number of items keeps the front of the
      sequence; cutting at least its length keeps all of it. */
  lemma TakeFront<T>(s: seq<T>, n: int, bound: nat)
    requires |s| <= bound
    ensures var r := Take(s, n);
            && (n >= bound ==> r == s)
            && (n >= 1 && |s| >= 1 ==> r[0] == s[0])
            && (n >= 2 && |s| >= 2 ==> r[..2] == s[..2])
  {
    var r := Take(s, n);
    if n >= 0 {
      assert r == s[..|r|];
    }
  }

  lemma RankFacts<T>(fetched: seq<T>, shuffledRest: seq<T>, newest: seq<T>, limit: int)
    requires |fetched| > 0
    requires multiset(shuffledRest) == multiset(Drop(fetched, 2))
    requires newest == if |fetched| <= 2 then fetched else fetched[..2]
    ensures var unique := Dedup(newest + shuffledRest);
            && Elements(unique) == Elements(fetched)
            && |unique| == |Elements(fetched)|
            && |unique| <= |fetched|
            && unique[0] == fetched[0]
            && (|fetched| >= 2 && fetched[0] != fetched[1] ==> |unique| >= 2 && unique[..2] == fetched[..2])
  {
    var merged := newest + shuffledRest;
    var unique := Dedup(merged);
    MultisetElements(shuffledRest, Drop(fetched, 2));
    assert fetched == newest + Drop(fetched, 2);
    assert Elements(merged) == Elements(newest) + Elements(shuffledRest);
    assert Elements(fetched) == Elements(newest) + Elements(Drop(fetched, 2));
    NoDuplicatesCount(unique);
    ElementsCount(fetched);
    assert merged[0] == fetched[0];
    if |fetched| >= 2 && fetched[0] != fetched[1] {
      assert merged[..2] == fetched[..2];
      DedupKeepsDistinctPrefix(merged);
    }
  }

  /** Ten date-sorted rows and a limit of five: the two newest rows open
      the result whatever the shuffle did. */
  lemma TwoNewestLead<T>(fetched: seq<T>, shuffledRest: seq<T>)
    requires |fetched| == 10 && NoDuplicates(fetched)
    requires multiset(shuffledRest) == multiset(Drop(fetched, 2))
    ensures var r := Rank(fetched, shuffledRest, 5);
            |r| == 5 && r[0] == fetched[0] && r[1] == fetched[1]
  {
    NoDuplicatesCount(fetched);
  }
}

=== FILE: strings.dfy ===
/** String helpers standing in for the PHP built-ins the core calls:
    `implode`, `explode`, `strpos`, `mb_substr`, integer printing and the
    `(int)` cast of a string. Strings are sequences of characters; no
    multibyte encoding is modelled. */
module Strings {

  /** PHP's `implode($sep, $parts)`. */
  function Join(parts: seq<string>, sep: string): string
    decreases |parts|
  {
    if |parts| == 0 then ""
    else if |parts| == 1 then parts[0]
    else parts[0] + sep + Join(parts[1..], sep)
  }

  /** Index of the first occurrence of `c` in `s` (PHP's `strpos` for one character). */
  function IndexOf(s: string, c: char): (i: nat)
    requires c in s
    ensures i < |s| && s[i] == c
    ensures c !in s[..i]
  {
    if s[0] == c then 0
    else
      var j := IndexOf(s[1..], c);
      assert s[..j + 1] == [s[0]] + s[1..][..j];
      1 + j
  }

  /** PHP's `explode` with a one-character separator. */
  function Split(s: string, c: char): (r: seq<string>)
    ensures |r| >= 1
    ensures forall i :: 0 <= i < |r| ==> c !in r[i]
    decreases |s|
  {
    if c !in s then [s]
    else
      var i := IndexOf(s, c);
      [s[..i]] + Split(s[i + 1..], c)
  }

  lemma {:induction false} IndexOfAfterPrefix(x: string, c: char, y: string)
    requires c !in x
    ensures c in x + [c] + y
    ensures IndexOf(x + [c] + y, c) == |x|
    decreases |x|
  {
    var s := x + [c] + y;
    assert s[|x|] == c;
    if |x| == 0 {
    } else {
      assert s[1..] == x[1..] + [c] + y;
      IndexOfAfterPrefix(x[1..], c, y);
    }
  }

  /** Joining with a one-character separator that occurs in no part is
      undone by splitting at that character. */
  lemma {:induction false} SplitJoin(parts: seq<string>, c: char)
    requires |parts| >= 1
    requires forall i :: 0 <= i < |parts| ==> c !in parts[i]
    ensures Split(Join(parts, [c]), c) == parts
    decreases |parts|
  {
    if |parts| == 1 {
      assert Join(parts, [c]) == parts[0];
    } else {
      var head := parts[0];
      var tail := parts[1..];
      var rest := Join(tail, [c]);
      var s := head + [c] + rest;
      assert Join(parts, [c]) == s;
      assert c !in head;
      IndexOfAfterPrefix(head, c, rest);
      SplitStep(head, c, rest);
      assert forall i :: 0 <= i < |tail| ==> c !in tail[i] by {
        forall i | 0 <= i < |tail| ensures c !in tail[i] {
          assert tail[i] == parts[i + 1];
        }
      }
      SplitJoin(tail, c);
      assert parts == [head] + tail;
    }
  }

  lemma SplitStep(x: string, c: char, y: string)
    requires c !in x
    requires c in x + [c] + y && IndexOf(x + [c] + y, c) == |x|
    ensures Split(x + [c] + y, c) == [x] + Split(y, c)
  {
    var s := x + [c] + y;
    assert s[..|x|] == x;
    assert s[|x| + 1..] == y;
  }

  /** Joining introduces no character that is in neither a part nor the separator. */
  lemma {:induction false} JoinAddsOnlySeparator(parts: seq<string>, sep: string, c: char)
    requires c !in sep
    requires forall i :: 0 <= i < |parts| ==> c !in parts[i]
    ensures c !in Join(parts, sep)
    decreases |parts|
  {
    if |parts| > 1 {
      JoinAddsOnlySeparator(parts[1..], sep, c);
    }
  }

  /** SQL `LIKE '%needle%'`: `needle` occurs somewhere in `hay`. */
  predicate Contains(hay: string, needle: string)
    decreases |hay|
  {
    needle <= hay || (|hay| > 0 && Contains(hay[1..], needle))
  }

  /** `mb_substr($s, 0, $len)`: a negative length drops that many characters from the end. */
  function PrefixSubstr(s: string, len: int): (r: string)
    ensures r <= s
    ensures 0 <= len <= |s| ==> |r| == len
    ensures len > |s| ==> r == s
    ensures len < 0 ==> |r| == if |s| + len > 0 then |s| + len else 0
  {
    if len >= 0 then (if len <= |s| then s[..len] else s)
    else if |s| + len > 0 then s[..|s| + len]
    else ""
  }

  // ---- integers as decimal text ----

  predicate IsDigit(ch: char) { '0' <= ch <= '9' }

  predicate AllDigits(s: string) { forall i :: 0 <= i < |s| ==> IsDigit(s[i]) }

  function DigitChar(d: nat): (ch: char)
    requires d < 10
    ensures IsDigit(ch) && ch as int - '0' as int == d
  {
    ('0' as int + d) as char
  }

  /** Decimal text of a natural number, without leading zeros. */
  function NatToString(n: nat): (s: string)
    ensures |s| >= 1 && AllDigits(s)
    decreases n
  {
    if n < 10 then [DigitChar(n)] else NatToString(n / 10) + [DigitChar(n % 10)]
  }

  /** PHP's conversion of an integer to a string. */
  function IntToString(i: int): (s: string)
    ensures |s| >= 1
    ensures i < 0 <==> s[0] == '-'
  {
    if i < 0 then "-" + NatToString(-i) else NatToString(i)
  }

  /** Value of a string of decimal digits. */
  function DigitsValue(s: string): nat
    requires AllDigits(s)
    decreases |s|
  {
    if |s| == 0 then 0
    else 10 * DigitsValue(s[..|s| - 1]) + (s[|s| - 1] as int - '0' as int)
  }

  /** The longest prefix of `s` made of digits. */
  function LeadingDigits(s: string): (r: string)
    ensures r <= s && AllDigits(r)
    ensures |r| < |s| ==> !IsDigit(s[|r|])
    decreases |s|
  {
    if |s| > 0 && IsDigit(s[0]) then [s[0]] + LeadingDigits(s[1..]) else ""
  }

  predicate IsPhpWhitespace(ch: char) {
    ch == ' ' || ch == '\t' || ch == '\n' || ch == '\r' || ch == '\U{B}' || ch == '\U{C}'
  }

  function SkipWhitespace(s: string): (r: string)
    ensures |r| <= |s| && r == s[|s| - |r|..]
    ensures |r| > 0 ==> !IsPhpWhitespace(r[0])
    decreases |s|
  {
    if |s| > 0 && IsPhpWhitespace(s[0]) then SkipWhitespace(s[1..]) else s
  }

  /** PHP's `(int)` cast of a string: leading whitespace, an optional sign,
      then the leading decimal digits; anything else reads as 0. */
  function ParseInt(s: string): int
  {
    var t := SkipWhitespace(s);
    if |t| > 0 && t[0] == '-' then 0 - DigitsValue(LeadingDigits(t[1..])) as int
    else if |t| > 0 && t[0] == '+' then DigitsValue(LeadingDigits(t[1..]))
    else DigitsValue(LeadingDigits(t))
  }

  lemma {:induction false} DigitsOfNat(n: nat)
    ensures DigitsValue(NatToString(n)) == n
    decreases n
  {
    var s := NatToString(n);
    if n >= 10 {
      DigitsOfNat(n / 10);
      assert s[..|s| - 1] == NatToString(n / 10);
    }
  }

  lemma {:induction false} LeadingDigitsOfDigits(s: string)
    requires AllDigits(s)
    ensures LeadingDigits(s) == s
    decreases |s|
  {
    if |s| > 0 {
      LeadingDigitsOfDigits(s[1..]);
    }
  }

  /** Casting the decimal text of an integer back with `(int)` gives the integer. */
  lemma ParseIntToString(i: int)
    ensures ParseInt(IntToString(i)) == i
  {
    var s := IntToString(i);
    var m: nat := if i < 0 then -i else i;
    assert SkipWhitespace(s) == s;
    DigitsOfNat(m);
    LeadingDigitsOfDigits(NatToString(m));
    if i < 0 {
      assert s[1..] == NatToString(m);
    } else {
      assert s[0] != '-' && s[0] != '+';
    }
  }
}

=== FILE: wrappers.dfy ===
/** Optional values: PHP's `null` next to a present value. */
module Wrappers {

  datatype Option<+T> = None | Some(value: T) {

    /** The value, or `default` when absent (PHP's `$x ?? $default`). */
    function GetOr(default: T): T {
      match this
      case Some(v) => v
      case None => default
    }

    /** This option if present, otherwise `other` (a chain of `??`). */
    function OrElse(other: Option<T>): Option<T> {
      if Some? then this else other
    }
  }
}
